=== FILE: README.md ===
# Hospital back office: billing, payroll, stock and reports

This project models the computational core of a Django hospital
management back office and proves properties of that model in Dafny.
The core covers:

- the bill ledger: charges, derived balance and payment status, bill-number minting, and the create, update, delete and record-payment handlers;
- the sequential `BILL-NNNNN` and `DOC-NNN` identifiers;
- the parallel ledgers: salaries, account transactions, budgets and purchase-order lines;
- the pharmacy: stock changes and medicine creation checks;
- two uniqueness loops: patient usernames and random appointment ids;
- the date arithmetic: age, inclusive leave days, and check-in/check-out hours;
- the appointment and leave status transitions;
- three reports: medicine stock, daily billing, and doctor appointments.

Modelling conventions:

- Money is an integer in minor currency units. Percentages and hours are `real`, with no rounding.
- A database table whose rows a handler changes is a class. It holds a `map` from primary key to row, plus the auto-increment counter.
- A request handler is a method on that class. Its `isPost` parameter says whether the request was a POST. `NotFound` stands for `get_object_or_404`.
- A row is a datatype.
- A report takes the rows of its query as a `seq`.

Modules, one per file:

| module | file | models |
|---|---|---|
| `Wrappers` | wrappers.dfy | `Option`, `Result`, `Outcome` |
| `Identifiers` | identifiers.dfy | `int(s.split('-')[1])`, `f'{prefix}-{n:0Wd}'` and the shared minting rule |
| `Billing` | billing.dfy | billing/models.py, billing/views.py |
| `Doctors` | doctors.dfy | doctors/models.py |
| `Dates` | dates.dfy | `date`/`time` arithmetic and `strptime` for the two date formats the reports use |
| `Employees` | employees.dfy | employees/models.py, employees/views.py |
| `Financial` | financial.dfy | financial/models.py |
| `Pharmacy` | pharmacy.dfy | pharmacy/models.py, pharmacy/views.py |
| `Suppliers` | suppliers.dfy | suppliers/models.py |
| `Attendance` | attendance.dfy | attendance/models.py, attendance/views.py |
| `Patients` | patients.dfy | patients/models.py, patients/views.py |
| `Appointments` | appointments.dfy | appointments/views.py |
| `StockReport` | stock_report.dfy | `medicine_stock_report` |
| `BillingReport` | billing_report.dfy | `daily_billing_report` |
| `DoctorReport` | doctor_report.dfy | `doctor_appointments_report` |

Two behaviours of the code are modelled as written, because the code
shows them and nothing contradicts them:

- **Patient quick create.** It creates a `Patient` without a `patient_id`. `patients/models.py` has no code that fills it, so the row gets the empty string. The field is unique. A second quick create therefore fails at the database. The atomic block then rolls back the user created just before, and the handler reports the error. `Patients.Directory.QuickCreate` returns `DuplicatePatientId` in that case and leaves both tables unchanged.
- **Appointment or bill creation with an unknown patient or doctor.** `get_object_or_404` raises inside the handler's `try`. The `except Exception` catches it and the form is shown again with an error, so no 404 results. `Appointments.AppointmentBook.Create` returns `PatientNotFound` or `DoctorNotFound` and saves nothing. `Billing.BillLedger.Create` returns `PatientNotFound` and saves nothing.
- **Duplicate identifiers.** `bill_number` and a doctor's `employee_id` are unique columns. A minted or posted value that is already taken makes the insert fail with `IntegrityError`. `bill_create` catches it and shows the form again. `Billing.BillLedger.Insert` and `Doctors.DoctorRegistry.Insert` refuse the row and change nothing.

## Model

| member | source | states |
|---|---|---|
| Identifiers.ParseInt | billing/models.py:45 | `int()` of an identifier field succeeds exactly on a non-empty run of decimal digits |
| Identifiers.ZeroPad | billing/models.py:46 | zero padding to a width: the result is as long as the wider of the two, ends with the digits, has only zeros in front, and never truncates |
| Identifiers.DecimalStringValue | billing/models.py:45-46 | reading back the decimal text of `n` gives `n` |
| Identifiers.FormatRoundTrip | doctors/models.py:31-32 | parsing the second `-` field of `prefix-n`, padded to any width, gives `n` back |
| Identifiers.NextIdentifierNumber | billing/models.py:33-52 | the minted identifier parses to one of three numbers: the predecessor's number plus one, the row count plus one when the predecessor is malformed, or 1 when there is no predecessor |
| Identifiers.NextIdentifier | billing/models.py:34-52 | the minted identifier starts with `prefix-` and has at least `width` characters after it |
| Identifiers.MintingIsMonotonic | doctors/models.py:28-32 | after a well-formed predecessor, the minted number is strictly greater and the identifier is different |
| Identifiers.ChainIsIncreasing | billing/models.py:42-46 | two identifiers minted one after the other have consecutive numbers |
| Billing.StatusFor | billing/models.py:57-64 | UNPAID iff paid ≤ 0; PAID iff 0 < paid and total ≤ paid; PARTIAL iff 0 < paid < total |
| Billing.BalanceFor | billing/models.py:54-62 | the balance is 0 for a PAID bill, even an overpaid one; otherwise it is total − paid |
| Billing.BalanceIsClampedDifference | billing/models.py:54-64 | the balance equals max(total − paid, 0), and is non-negative, except exactly when paid ≤ 0 and paid > total |
| Billing.BalanceZeroIffPaid | billing/models.py:58-64 | with a positive total, the balance is 0 iff the bill is PAID; any other bill has a positive balance |
| Billing.CreateFormStatus | billing/views.py:109-114 | the status the create handler picks: UNPAID iff nothing was paid; PAID iff something was paid and it covers the total; PARTIAL iff something was paid but less than the total |
| Billing.CreateFormStatusOverridden | billing/views.py:108-114 | the create handler's own status agrees with the status `save` stores iff paid ≥ 0; for a negative payment the handler says PARTIAL and `save` stores UNPAID |
| Billing.ApplyPayment | billing/views.py:254-267 | a payment ≤ 0 or above the balance is refused; otherwise it is added to the amount paid, balance and status are derived again, and nothing else changes |
| Billing.PaymentWithinTotal | billing/views.py:259-267 | an accepted payment never takes the amount paid above the total; paying the whole balance leaves the bill PAID with balance 0; a PARTIAL bill never returns to UNPAID |
| Billing.PaidBillRefusesPayment | billing/views.py:259-261 | a PAID bill refuses every payment |
| Billing.FirstBillNumber | billing/models.py:51-52 | with no predecessor the number is `BILL-00001` |
| Billing.BillNumberAfter42 | billing/models.py:42-46 | after `BILL-00042` comes `BILL-00043` |
| Billing.BillNumberFallback | billing/models.py:47-50 | a non-empty predecessor without a `-` gives the row count plus one, formatted as a bill number |
| Billing.BillNumberAfterGarbage | billing/models.py:47-50 | a predecessor `GARBAGE` and 7 bills give `BILL-00008` |
| Billing.BillNumberIgnoresPrefix | billing/models.py:44-46 | a predecessor `INV-n` gives `BILL-` and n + 1: only the second field is read |
| Billing.BillLedger.LastNumberBelow | billing/models.py:35-40 | the number of the bill with the highest primary key whose number is not empty; `None` iff there is none |
| Billing.BillLedger.Save | billing/models.py:32-66 | a non-empty number is kept, an empty one is minted; balance and status are derived; only those three fields change; saving a saved bill changes nothing |
| Billing.CreateFormError | billing/views.py:62-106 | the create form's first failing check, in the handler's order: no patient, unknown patient, total ≤ 0, paid > total; none exactly when the patient exists and 0 < total and paid ≤ total |
| Billing.BillLedger.Insert | billing/models.py:11-66 | a bill number already in the table, minted or given, is refused with `DuplicateBillNumber` and changes nothing; otherwise the saved bill (number minted when empty, balance and status derived) is stored under the next primary key and nothing else changes; the table stays settled and its bill numbers unique |
| Billing.BillLedger.Create | billing/views.py:57-158 | the errors come in order: no patient, unknown patient, total ≤ 0, paid > total, then a minted number already taken; a negative payment is not refused; it succeeds exactly when the form passes and the next number is free; on success one bill is added with the minted number, total = subtotal − discount + tax, and the derived balance and status; on failure nothing changes |
| Billing.BillLedger.Update | billing/views.py:170-213 | a missing bill is NotFound; a POST with total ≤ 0 is refused; it passes exactly when the bill exists and the request is not a POST with total ≤ 0; on a passing POST charges and total are replaced, balance and status are derived from the unchanged amount paid, and the number is kept |
| Billing.BillLedger.Delete | billing/views.py:231-242 | a missing bill is NotFound; the bill is removed only on POST; it passes exactly when the bill exists |
| Billing.BillLedger.RecordPayment | billing/views.py:246-276 | a missing bill is NotFound and leaves every bill as it was; the patients and the id counter never change; on POST the bill becomes exactly what `ApplyPayment` gives, or stays unchanged with its error; the stored amount paid never exceeds the total; any other request on an existing bill passes and changes nothing |
| Doctors.FullNameRoundTrip | doctors/models.py:42-43 | the full name is first + " " + last, and splitting it at its first space gives both names back when the first name has no space |
| Doctors.FirstDoctorId | doctors/models.py:37-38 | with no predecessor the id is `DOC-001` |
| Doctors.DoctorIdSuccessor | doctors/models.py:28-32 | after `DOC-n` comes `DOC-` and n + 1, zero-padded to at least 3 digits |
| Doctors.DoctorIdWidens | doctors/models.py:32 | after `DOC-999` comes `DOC-1000`: the padding is a minimum width, not a limit |
| Doctors.DoctorIdFallback | doctors/models.py:33-36 | a predecessor `DOC-X` and 4 doctors give `DOC-005` |
| Doctors.DoctorRegistry.LastIdBelow | doctors/models.py:22-26 | the id of the doctor with the highest primary key whose id is not empty; `None` iff there is none |
| Doctors.DoctorRegistry.Save | doctors/models.py:19-40 | a non-empty employee id is kept, an empty one is minted; no other field changes |
| Doctors.DoctorRegistry.Insert | doctors/models.py:6-40 | an employee id already in the table, minted or given, is refused with `DuplicateEmployeeId` and changes nothing; otherwise the saved doctor is stored under the next primary key, nothing else changes, and employee ids stay unique |
| Dates.DaysInMonth | attendance/models.py:73 | every month has 28 to 31 days |
| Dates.Age | patients/models.py:41-47 | the age-th anniversary of the date of birth is on or before today and the next one is after it |
| Dates.AgeCountsAnniversaries | patients/models.py:41-47 | the age is k iff today is on or after the k-th birthday and before the (k+1)-th |
| Dates.AgeOnBirthday | patients/models.py:45-47 | on the birthday itself, the age is the difference of the years |
| Dates.AgeDayBeforeBirthday | patients/models.py:45-47 | on the day before any birthday, including one on the 1st of a month or on 1 January, the age is the difference of the years less one |
| Dates.AgeNonNegative | employees/models.py:65-71 | the age is non-negative iff the date of birth is not after today |
| Dates.YearLength | attendance/models.py:73 | a year has 366 days iff it is a leap year, else 365 |
| Dates.OrdinalOrder | attendance/models.py:73 | the day ordinal orders dates as the calendar does, and distinct dates have distinct ordinals |
| Dates.MonthBoundary | attendance/models.py:73 | the first of a month follows the last day of the previous month |
| Dates.YearBoundary | attendance/models.py:73 | 1 January follows 31 December of the previous year |
| Dates.PreviousDay | attendance/models.py:73 | the day before a valid date other than 1 January of year 1 is a valid date whose day number is one less |
| Dates.TotalDays | attendance/models.py:71-73 | the inclusive count is 1 iff start = end, at least 2 iff start is before end, and ≤ 0 iff end is before start |
| Dates.TotalDaysAdditive | attendance/models.py:71-73 | two adjacent periods sharing a day count one day more than the whole period |
| Dates.FebruaryLeave | attendance/models.py:71-73 | 28 February to 1 March counts 3 days in a leap year and 2 in any other year |
| Dates.WorkingHoursSign | attendance/models.py:28-31 | the hours are negative iff check-out is earlier than check-in, and zero iff they are equal |
| Dates.WorkingHours | attendance/models.py:24-32 | with either time missing the hours are 0; with two valid times they are strictly between −24 and 24 |
| Dates.WorkingHoursAdditive | attendance/models.py:28-31 | hours from a to b plus hours from b to c equal the hours from a to c |
| Dates.ParseIsoDate | reports/views.py:233 | `%Y-%m-%d` parsing yields only valid dates |
| Dates.IsoRoundTrip | reports/views.py:233-234 | parsing the `YYYY-MM-DD` text of any valid date gives that date back |
| Dates.ParseAsWritten | reports/views.py:94 | `%Y-%m-d` parsing yields only valid dates, each on the first of its month |
| Dates.AsWrittenRefusesIsoDates | reports/views.py:94 | no text is accepted by both the `%Y-%m-d` and the `%Y-%m-%d` parsers |
| Dates.AsWrittenRefusesEveryIsoFormat | reports/views.py:94 | the `%Y-%m-d` parser refuses the `YYYY-MM-DD` text of every valid date |
| Dates.AsWrittenExamples | reports/views.py:94 | `2024-05-17` is refused by the `%Y-%m-d` parser but read as 17 May 2024 by `%Y-%m-%d`; `2024-05-d` is read as 1 May 2024 |
| Employees.SalaryStatusFor | employees/models.py:105-110 | PAID iff total ≤ paid, a test made first; PARTIAL iff 0 < paid < total; UNPAID iff paid ≤ 0 and paid < total |
| Employees.SaveSalary | employees/models.py:101-111 | the total becomes basic + bonus − deductions and the status is derived from it; nothing else changes; saving twice changes nothing more |
| Employees.SalaryAndBillStatusDiffer | employees/models.py:105-110 | salary and bill status rules disagree exactly when paid ≤ 0 and total ≤ paid: the salary is PAID while the bill is UNPAID |
| Employees.SalaryStatusMonotone | employees/models.py:105-110 | a non-negative payment never moves a salary back from PAID to PARTIAL or from PARTIAL to UNPAID |
| Employees.PaymentKeepsTotal | employees/models.py:101-110 | a payment leaves the total that `save` recomputes equal to the stored one, and the salary becomes PAID exactly when the payment covers the outstanding amount |
| Employees.Payroll.PaySalary | employees/views.py:51-59 | a missing salary is NotFound; on POST any amount, even a negative or an excessive one, is added and the salary saved again; otherwise nothing changes |
| Employees.Payroll.DeleteEmployee | employees/views.py:27-34 | on POST a missing employee is NotFound; an existing one is removed with its salaries, attendance records, leaves and shift assignments, and no remaining row refers to it; any other request, and a NotFound, changes nothing |
| Financial.NewAccount | financial/models.py:22-23 | a new account has balance 0 and status ACTIVE |
| Financial.Delta | financial/models.py:85-90 | INCOME adds the amount, EXPENSE subtracts it, TRANSFER leaves the balance alone |
| Financial.DeltaSign | financial/models.py:88-89 | with a non-negative amount, income never lowers the balance and expense never raises it; an expense above the balance makes it negative, since nothing checks it |
| Financial.NetDeltaOrderFree | financial/models.py:83-91 | the balance change of a batch of new transactions does not depend on their order |
| Financial.NetDeltaAppend | financial/models.py:83-91 | the balance change of two batches is the sum of their changes |
| Financial.Books.SaveTransaction | financial/models.py:83-91 | a new transaction changes its account's balance by `Delta` and nothing else; re-saving an existing one never touches any balance |
| Financial.Books.SaveAll | financial/models.py:83-91 | new transactions on one account, saved one after another, move its balance by their net change, and no other account changes; the id counter advances by their number, and the table keeps its old rows and gains `ts[i]` under the key `old(nextId) + i` |
| Financial.RowsContents | financial/models.py:83-91 | the rows a batch of new transactions takes: `ts[i]` under `start + i`, and no key outside the `len(ts)` keys from `start` on |
| Financial.Remaining | financial/models.py:108-110 | remaining + spent = allocated |
| Financial.Utilization | financial/models.py:112-116 | with a positive allocation, utilization × allocated = 100 × spent: the spent amount as a percentage of the allocation |
| Financial.UtilizationMatchesRemaining | financial/models.py:112-116 | with a positive allocation, utilization is above, at or below 100 exactly when the remaining amount is below, at or above 0 |
| Financial.UtilizationWithoutAllocation | financial/models.py:114-116 | with no positive allocation, utilization is 0 |
| Pharmacy.ProfitMarginSign | pharmacy/models.py:34-38 | with a positive purchase price, the margin has the sign of selling − purchase; otherwise it is 0 |
| Pharmacy.ProfitMargin | pharmacy/models.py:34-38 | with a positive purchase price, margin × purchase = 100 × (selling − purchase); otherwise the margin is 0 |
| Pharmacy.DoublePriceMargin | pharmacy/models.py:36-37 | selling at twice the purchase price is a 100 margin |
| Pharmacy.FromForm | pharmacy/views.py:53-58 | missing numbers take the defaults: stock 0, reorder level 10, prices 0 |
| Pharmacy.DefaultsAreLowStock | pharmacy/models.py:30-32 | a medicine created with default stock and reorder level is low on stock |
| Pharmacy.StockChange | pharmacy/views.py:199-215 | quantity ≤ 0 is refused; `add` adds; `remove` of more than the stock is refused, otherwise subtracts; any other action keeps the stock; a non-negative stock stays non-negative |
| Pharmacy.AddThenRemove | pharmacy/views.py:205-212 | removing what was just added restores the stock, and adding back what was removed restores it too |
| Pharmacy.LowStockAfterChange | pharmacy/models.py:30-32 | an accepted removal never lifts a medicine out of low stock and an accepted addition never puts one into it; an addition clears the flag iff it takes the stock past the reorder level |
| Pharmacy.Catalogue.Create | pharmacy/views.py:42-117 | the errors come in order: missing field, duplicate medicine id, negative price; a selling price below the purchase price is only a warning; it succeeds exactly when every required field is filled, the id is new and both prices are non-negative; on success one medicine is added; on failure nothing changes |
| Pharmacy.Catalogue.UpdateStock | pharmacy/views.py:191-222 | a missing medicine is NotFound and leaves every medicine as it was; on POST the stock becomes what `StockChange` gives, or stays with its error; otherwise nothing changes; any other request on an existing medicine passes |
| Suppliers.NewSupplier | suppliers/models.py:37-39 | a new supplier is ACTIVE with rating 0, which the rating validator accepts |
| Suppliers.NewPurchaseOrder | suppliers/models.py:64-65 | a new purchase order is PENDING with total 0 |
| Suppliers.SaveItem | suppliers/models.py:80-86 | the line total becomes quantity × unit price, overwriting any stored value; nothing else changes; the quantity validator is not run, so a line with quantity ≤ 0 and a non-negative price is saved with a total ≤ 0 |
| Attendance.NewAttendance | attendance/models.py:13-17 | a new attendance record is PRESENT |
| Attendance.NewLeave | attendance/models.py:57-64 | a new leave is PENDING, with no approver and no remarks |
| Attendance.RecordHoursBounds | attendance/models.py:24-32 | a record's hours are 0 without both times and strictly between −24 and 24 always |
| Attendance.LeaveDaysPositive | attendance/models.py:71-73 | a leave counts at least one day iff it does not end before it starts, and exactly one iff it starts and ends on the same day |
| Attendance.AttendanceBook.Approve | attendance/views.py:49-56 | on POST a missing leave is NotFound; an existing one becomes APPROVED from any status, and no other field changes; any other request changes nothing |
| Attendance.AttendanceBook.Reject | attendance/views.py:58-65 | the same as approval, with REJECTED |
| Attendance.AttendanceBook.RemoveEmployee | attendance/models.py:13-96 | the cascade of an employee's deletion: exactly the attendance records, leaves and shift assignments of that employee are removed, and every other row is kept |
| Patients.BeforeFirst | patients/views.py:153 | the text before the first `@`: it has no `@`, is a prefix of the email, and is followed by `@` when shorter |
| Patients.FirstFreeNameUnique | patients/views.py:153-158 | there is at most one first free username for a base: the base itself when unused, otherwise base + k for the smallest unused k ≥ 1 |
| Patients.Directory.UniqueUsername | patients/views.py:153-158 | the loop returns the first free username: never an existing one, and the base itself when that is unused |
| Patients.Directory.UsernameIsNew | patients/views.py:156 | a name outside the set of usernames belongs to no user |
| Patients.Directory.QuickCreate | patients/views.py:123-193 | the errors come in order: missing field, email in use, empty username (an email starting with `@`), duplicate empty patient id; on failure neither table changes; on success one user with the first free username and the normalized email, and one patient, are added |
| Patients.LastIndex | patients/views.py:161-167 | the position of the last `@` in an email, or none when it has none |
| Patients.Lower | patients/views.py:161-167 | the lower-case form of each character, at the same position |
| Patients.NormalizeEmail | patients/views.py:161-167 | the address `create_user` stores: same length, same text up to the last `@`, lower-case domain after it, unchanged without `@`; it only changes letter case |
| Patients.NormalizeEmailIdempotent | patients/views.py:161-167 | normalizing a stored address again leaves it unchanged |
| Patients.NormalizeEmailKeepsBaseUsername | patients/views.py:153-167 | the stored address has the same local part as the typed one, so the username still comes from it |
| Appointments.AppointmentBook.GenerateId | appointments/views.py:12-23 | the result is `APT` and six digits, is not an existing id, and is the first unused draw |
| Appointments.AppointmentBook.Create | appointments/views.py:60-116 | the errors come in order: missing field, unknown patient, unknown doctor; it succeeds exactly when every field is filled and both the patient and the doctor exist; on success one PENDING appointment with a fresh id is added; on failure nothing changes |
| Appointments.AppointmentBook.Update | appointments/views.py:136-181 | a missing appointment is NotFound; it passes exactly when the appointment exists and the request is not a POST with an empty required field; a passing POST replaces the five form fields; anything else saves nothing |
| Appointments.AppointmentBook.Confirm | appointments/views.py:199-210 | NotFound iff the appointment is missing, and passes otherwise; on POST the status becomes CONFIRMED from any status; otherwise nothing changes |
| Appointments.AppointmentBook.Complete | appointments/views.py:213-224 | the same with COMPLETED, so a cancelled appointment can be completed |
| Appointments.AppointmentBook.Cancel | appointments/views.py:227-238 | the same with CANCELLED |
| StockReport.FilterWhere | reports/views.py:178-180 | the critical list holds exactly the medicines that meet the test, as many as the count |
| StockReport.DistributionPartitions | reports/views.py:173-175 | the adequate, moderate and critical counts add up to the number of medicines |
| StockReport.CriticalSubsets | reports/views.py:154-157 | low-stock and out-of-stock medicines are critical, and together they make up the critical count exactly when no stock is negative |
| StockReport.StockedOrEmpty | reports/views.py:151-157 | in-stock plus out-of-stock is at most the total, and equal to it iff no stock is negative |
| StockReport.CriticalAlertIsCritical | reports/views.py:175-180 | the alert list's test (out of stock or ≤ 10) selects the same medicines as the critical count |
| StockReport.CountDisjoint | reports/views.py:173-175 | the counts of two exclusive tests add up to the count of either |
| StockReport.DistributionPercents | reports/views.py:209-211 | each distribution percentage lies between 0 and 100, the three add up to 100 for a non-empty stock, and all are 0 with no medicines |
| StockReport.SortByStock | reports/views.py:178-180 | the result is ordered by stock, lowest first, and is a permutation of the input |
| StockReport.CriticalList | reports/views.py:178-214 | the critical list is ordered by stock, lowest first, holds only critical medicines, and has ten of them or all of them when fewer |
| StockReport.CriticalListIsLowest | reports/views.py:214 | no critical medicine left off the list has less stock than one on it, and with at most ten critical medicines every one is listed |
| StockReport.StockValues | reports/views.py:160-167 | the loop's two sums are Σ stock · purchase price and Σ stock · selling price over all medicines: its guards skip only zero terms |
| StockReport.ProfitIsSumOfMarkups | reports/views.py:169 | the expected profit is the sum over medicines of stock · (selling − purchase) |
| StockReport.ProfitNonNegative | reports/views.py:169 | with no negative stock and no medicine sold below cost, the expected profit is non-negative |
| StockReport.MarginSign | reports/views.py:170 | with a positive purchase value, the margin has the sign of the expected profit; otherwise it is 0 |
| BillingReport.ReportDate | reports/views.py:91-96 | no date or an empty one means today; any other date read is a valid date |
| BillingReport.ReportDateAsWritten | reports/views.py:91-96 | no date or an empty one means today; any other date accepted is a valid first of a month |
| BillingReport.ExplicitDateFails | reports/views.py:94 | as written, every explicit `YYYY-MM-DD` date makes the report fail, while the corrected reading returns exactly that date |
| BillingReport.StatusCountsPartition | reports/views.py:110-112 | the PAID, UNPAID and PARTIAL counts add up to the number of bills |
| BillingReport.PendingVersusBalances | reports/views.py:105-107 | over saved bills, pending = Σ total − Σ paid never exceeds Σ balance, and equals it iff no PAID bill was overpaid |
| BillingReport.BreakdownAddsUp | reports/views.py:116-119 | the four breakdown totals add up to the day's subtotal |
| BillingReport.TotalFromCharges | reports/views.py:105 | when every total is the handlers' one, the day's total is Σ subtotal − Σ discount + Σ tax |
| BillingReport.PartialWithinPaid | reports/views.py:113 | with no negative payment, the partial amount lies between 0 and the day's total paid |
| DoctorReport.StatusCountsPartition | reports/views.py:256-260 | a doctor's four status counts add up to the doctor's total |
| DoctorReport.CompletionRateBounds | reports/views.py:263 | the completion rate lies between 0 and 100, and is 100 iff there are appointments and all are completed |
| DoctorReport.StatFor | reports/views.py:256-273 | a line is for its doctor, its four status counts partition its total, completed ≤ total, and its rate is a percentage |
| DoctorReport.BuildStats | reports/views.py:244-276 | one line per doctor, in order; the grand totals are the sums of the lines' totals and completed counts, and completed never exceeds the total |
| DoctorReport.GrandTotalCountsEveryAppointment | reports/views.py:248-276 | when each doctor is listed once and every appointment belongs to a listed doctor, the grand total is the number of appointments |
| DoctorReport.Sort | reports/views.py:279-283 | the result is sorted non-increasing by the key, is a permutation of the input, and keeps the sum of the totals |
| DoctorReport.Active | reports/views.py:286 | the active lines are exactly the lines with a positive total |
| DoctorReport.ActiveAtMostGrandTotal | reports/views.py:286-287 | there are no more active doctors than appointments |
| DoctorReport.CompletedWithinTotals | reports/views.py:275-276 | summed over consistent lines, completed ≤ total, with equality iff every line is fully completed |
| DoctorReport.AverageCompletionRateBounds | reports/views.py:287 | the overall completion rate is a percentage; it is 100 iff there is an appointment and every doctor completed all of theirs, and 0 when nothing was completed |
| DoctorReport.TopDoctors | reports/views.py:290-294 | at most three lines, as many as there are active doctors up to three, all active, and sorted by completion rate |
| DoctorReport.TopDoctorsAreTop | reports/views.py:290-294 | no active doctor left out of the top lines has a better completion rate than one in them |

## Left out

- The web framework is not modelled: ORM queries, `render`, `redirect`, messages, `login_required`, URL configuration and JSON responses. Tables are maps or sequences, and a request is a set of explicit parameters.
- Money arrives through `float()` parsing and is stored as `Decimal`. The model uses whole minor units, so rounding to two decimal places is not modelled.
- A `ValueError` from `float()` or `int()` on a malformed form field is not modelled. Form numbers are integers, or `None` when missing.
- Billing.BillLedger.RecordPayment: does not model the `TypeError` of `Decimal += float`; the addition is exact.
- Employees.Payroll.PaySalary: does not model the `TypeError` of `Decimal += float`; the addition is exact.
- Billing.BillLedger.Update: saves a valid POST. In the code, `bill.total_amount` is set to a `float` (billing/views.py:206). `Bill.save` then subtracts the stored `Decimal` amount paid from it (billing/models.py:55), which raises `TypeError`. The `except Exception` at billing/views.py:217 reports it, so the code as written never stores an update. The model stores it as the handler evidently intends.
- `round()` on report percentages, the completion rate and the profit margin is not modelled. Rates are exact reals.
- DoctorReport.Sort: does not state stability. Python's `sorted` keeps equal keys in their original order; the insertion model places earlier lines first among equals, but no lemma states it.
- DoctorReport.TopDoctors: sorts by the exact completion rate rather than by its value rounded to one decimal. Two rates that round to the same value may therefore be ordered differently.
- The doctor report's date-range filter and the billing report's `created_at` date filter are not modelled. Each report takes the rows its query returns.
- `strip()` of form text is not modelled. Fields arrive already stripped.
- The text of dates and times posted to the appointment forms is not checked. It is kept as text, as the handlers pass it to the ORM.
- Pharmacy.Catalogue.Create: does not model the refusal of a malformed `expiry_date`. The handler passes the posted text to `Medicine.objects.create` (pharmacy/views.py:55, 93). The `DateField` there rejects text it cannot read as a date, and the `except Exception` at pharmacy/views.py:107-111 shows the error with nothing created. The model treats any non-empty text as a date, so its success condition omits this case.
- Patients.Directory.QuickCreate: does not model `normalize_username`, the NFKC normalization `create_user` applies to the username; `Patients.NormalizeEmail` lowercases only the letters A to Z, where `str.lower` lowercases every cased Unicode letter.
- Patients.Directory.QuickCreate: does not model the refusal of a malformed `date_of_birth`. The posted text (patients/views.py:134) reaches the `DateField` of the patient insert (patients/views.py:170-176). Text it cannot read raises inside `transaction.atomic()`, which rolls back the user just created, and the handler returns the error (patients/views.py:189-193). The model's form carries the date already parsed, or `None` when it is missing, so its error order omits this case.
- Unicode digits, whitespace, signs and underscores that Python's `int()` accepts are not modelled. An identifier field parses only when it is ASCII digits. Likewise, Dates.ParseYear, Dates.ParseMonth and Dates.ParseDay accept only ASCII digits, while `strptime`'s `%Y`, `%m` and `%d` also match other Unicode decimal digits.
- `random.choices` is modelled as a caller-supplied stream of six-digit draws. Appointments.AppointmentBook.GenerateId: requires that some draw in the stream is unused, since the source's retry loop terminates only with probability 1.
- Concurrent requests are not modelled. This includes the read-last-then-write numbering race in `Bill.save` and `Doctor.save`.
- `medicine_update`, `medicine_delete`, `appointment_delete`, the list and detail views, `reports_home` and `daily_appointments_report` are not modelled. They copy fields or render lists.
- The expiring-medicine list of the stock report is not modelled. It depends on the clock.
- StockReport.CriticalList: keeps medicines of equal stock in their table order. The database leaves that order unspecified.
- The PDF, Excel and CSV exports and the bill PDF views are not modelled. They only format output.
- Today's date comes in as a parameter; the clock is not modelled.
- `Employee.age` is the same expression as `Patient.age`. Both are `Dates.Age`, and the employee's version adds only a field access.
- A transaction's posting saves the account first and the transaction second. A failure between the two saves is not modelled.
- Doctors.FullNameRoundTrip: holds only for first names without a space. With a space, the first-space split cannot recover the two names.

## Findings

| source | as written | input that shows it | evidently intended | confidence | as-written member | corrected member |
|---|---|---|---|---|---|---|
| reports/views.py:94 | `datetime.strptime(date_str, '%Y-%m-d')`: the day directive lacks its `%`, so the format ends in a literal `d` | `?date=2024-05-17` raises `ValueError`, so the daily billing report fails; `?date=2024-05-d` is accepted as 1 May 2024 | `'%Y-%m-%d'`, the format the doctor appointments report uses at reports/views.py:233 | not executed | BillingReport.ReportDateAsWritten (with Dates.AsWrittenExamples and BillingReport.ExplicitDateFails) | BillingReport.ReportDate (with Dates.IsoRoundTrip) |

=== FILE: appointments.dfy ===
/**
  Appointments: the random `APT` identifier with its retry loop, the
  create and update handlers' required-field checks, and the confirm,
  complete and cancel transitions.
*/
module Appointments {
  import opened Wrappers
  import opened Identifiers

  datatype AppointmentStatus = Pending | Confirmed | Completed | Cancelled

  /**
    A row of the appointment table. `patient` and `doctor` are primary keys;
    date and time are kept as the text the form posted.
  */
  datatype Appointment = Appointment(
    appointmentId: string,
    patient: nat,
    doctor: nat,
    date: string,
    time: string,
    kind: string,
    symptoms: string,
    notes: string,
    status: AppointmentStatus)

  /** The posted create form; a missing or empty patient or doctor is `None`, other missing fields are empty. */
  datatype CreateForm = CreateForm(
    patient: Option<nat>,
    doctor: Option<nat>,
    date: string,
    time: string,
    kind: string,
    symptoms: string,
    notes: string)

  /** The posted update form; missing fields are empty. */
  datatype UpdateForm = UpdateForm(date: string, time: string, kind: string, symptoms: string, notes: string)

  datatype AppointmentError =
    | NotFound
    | MissingRequiredField
    | PatientNotFound
    | DoctorNotFound

  const IdPrefix: string := "APT"
  const IdDigits: nat := 6

  /** A six-digit draw of `random.choices(string.digits, k=6)`. */
  predicate IsDraw(s: string) {
    |s| == IdDigits && AllDigits(s)
  }

  /** The shape of every generated identifier: `APT` and six decimal digits. */
  predicate IsAppointmentId(id: string) {
    |id| == |IdPrefix| + IdDigits && id[..|IdPrefix|] == IdPrefix && AllDigits(id[|IdPrefix|..])
  }

  predicate CreateFilled(f: CreateForm) {
    f.patient.Some? && f.doctor.Some? && f.date != "" && f.time != "" && f.kind != "" && f.symptoms != ""
  }

  predicate UpdateFilled(f: UpdateForm) {
    f.date != "" && f.time != "" && f.kind != "" && f.symptoms != ""
  }

  class AppointmentBook {
    var appointments: map<nat, Appointment>
    var nextId: nat
    var patients: set<nat>
    var doctors: set<nat>

    /** Primary keys are below the counter, and every appointment identifier is unique. */
    ghost predicate Valid()
      reads this
    {
      (forall pk :: pk in appointments ==> pk < nextId) &&
      (forall p, q :: p in appointments && q in appointments && p != q ==>
         appointments[p].appointmentId != appointments[q].appointmentId)
    }

    constructor (patients: set<nat>, doctors: set<nat>)
      ensures Valid() && appointments == map[] && nextId == 0
      ensures this.patients == patients && this.doctors == doctors
    {
      appointments := map[];
      nextId := 0;
      this.patients := patients;
      this.doctors := doctors;
    }

    function ExistingIds(): set<string>
      reads this
    {
      set pk | pk in appointments :: appointments[pk].appointmentId
    }

    /**
      `generate_appointment_id`: draw six digits, and draw again while `APT`
      followed by the draw is taken. `draw(k)` is the `k`-th draw of the
      random source; some draw must eventually be free.
    */
    method GenerateId(draw: nat -> string) returns (id: string)
      requires forall k: nat :: IsDraw(draw(k))
      requires exists k: nat :: IdPrefix + draw(k) !in ExistingIds()
      ensures id !in ExistingIds()
      ensures IsAppointmentId(id)
      ensures exists k: nat :: id == IdPrefix + draw(k) && forall j: nat :: j < k ==> IdPrefix + draw(j) in ExistingIds()
    {
      var taken := ExistingIds();
      ghost var free: nat :| IdPrefix + draw(free) !in taken;
      var i: nat := 0;
      id := IdPrefix + draw(0);
      while id in taken
        invariant i <= free && id == IdPrefix + draw(i)
        invariant forall j: nat :: j < i ==> IdPrefix + draw(j) in taken
        decreases free - i
      {
        i := i + 1;
        id := IdPrefix + draw(i);
      }
      assert id[|IdPrefix|..] == draw(i);
    }

    /**
      `appointment_create` on a POST: the required fields, then the patient
      and the doctor must exist (a missing one is reported as an error, not a
      404); the new appointment gets a fresh identifier and starts pending.
    */
    method Create(f: CreateForm, draw: nat -> string) returns (r: Result<nat, AppointmentError>)
      requires Valid()
      requires forall k: nat :: IsDraw(draw(k))
      requires exists k: nat :: IdPrefix + draw(k) !in ExistingIds()
      modifies this
      ensures Valid() && patients == old(patients) && doctors == old(doctors)
      ensures r == Failure(MissingRequiredField) <==> !CreateFilled(f)
      ensures r == Failure(PatientNotFound) <==> CreateFilled(f) && f.patient.value !in patients
      ensures r == Failure(DoctorNotFound) <==> CreateFilled(f) && f.patient.value in patients && f.doctor.value !in doctors
      ensures r.Success? <==> CreateFilled(f) && f.patient.value in patients && f.doctor.value in doctors
      ensures r.Failure? ==> appointments == old(appointments) && nextId == old(nextId)
      ensures r.Success? ==>
        r.value == old(nextId) && nextId == old(nextId) + 1 && r.value in appointments &&
        var a := appointments[r.value];
        appointments == old(appointments)[r.value := a] &&
        a.appointmentId !in old(ExistingIds()) && IsAppointmentId(a.appointmentId) &&
        a == Appointment(a.appointmentId, f.patient.value, f.doctor.value, f.date, f.time, f.kind, f.symptoms, f.notes, Pending)
    {
      if !(f.patient.Some? && f.doctor.Some? && f.date != "" && f.time != "" && f.kind != "" && f.symptoms != "") {
        return Failure(MissingRequiredField);
      }
      if f.patient.value !in patients {
        return Failure(PatientNotFound);
      }
      if f.doctor.value !in doctors {
        return Failure(DoctorNotFound);
      }
      var id := GenerateId(draw);
      var a := Appointment(id, f.patient.value, f.doctor.value, f.date, f.time, f.kind, f.symptoms, f.notes, Pending);
      appointments := appointments[nextId := a];
      r := Success(nextId);
      nextId := nextId + 1;
    }

    /**
      `appointment_update` on a POST: the date, time, type, symptoms and
      notes are replaced and saved, unless one of the first four is empty, in
      which case nothing is saved.
    */
    method Update(pk: nat, f: UpdateForm, isPost: bool) returns (r: Outcome<AppointmentError>)
      requires Valid()
      modifies this
      ensures Valid() && nextId == old(nextId) && patients == old(patients) && doctors == old(doctors)
      ensures r == Fail(NotFound) <==> pk !in old(appointments)
      ensures r == Fail(MissingRequiredField) <==> pk in old(appointments) && isPost && !UpdateFilled(f)
      ensures r.Pass? <==> pk in old(appointments) && (!isPost || UpdateFilled(f))
      ensures r.Fail? || !isPost ==> appointments == old(appointments)
      ensures r.Pass? && isPost ==>
        appointments == old(appointments)[pk := old(appointments)[pk].(
          date := f.date, time := f.time, kind := f.kind, symptoms := f.symptoms, notes := f.notes)]
    {
      if pk !in appointments {
        return Fail(NotFound);
      }
      if !isPost {
        return Pass;
      }
      var a := appointments[pk];
      a := a.(date := f.date, time := f.time, kind := f.kind, symptoms := f.symptoms, notes := f.notes);
      if !(a.date != "" && a.time != "" && a.kind != "" && a.symptoms != "") {
        return Fail(MissingRequiredField);
      }
      appointments := appointments[pk := a];
      r := Pass;
    }

    /** `appointment_confirm`: a POST marks the appointment confirmed, whatever its status. */
    method Confirm(pk: nat, isPost: bool) returns (r: Outcome<AppointmentError>)
      requires Valid()
      modifies this
      ensures Valid() && nextId == old(nextId) && patients == old(patients) && doctors == old(doctors)
      ensures r == Fail(NotFound) <==> pk !in old(appointments)
      ensures r.Pass? <==> pk in old(appointments)
      ensures appointments == if r.Pass? && isPost then old(appointments)[pk := old(appointments)[pk].(status := Confirmed)]
                              else old(appointments)
    {
      if pk !in appointments {
        return Fail(NotFound);
      }
      if isPost {
        var a := appointments[pk];
        a := a.(status := Confirmed);
        appointments := appointments[pk := a];
      }
      r := Pass;
    }

    /** `appointment_complete`: a POST marks the appointment completed, even a cancelled one. */
    method Complete(pk: nat, isPost: bool) returns (r: Outcome<AppointmentError>)
      requires Valid()
      modifies this
      ensures Valid() && nextId == old(nextId) && patients == old(patients) && doctors == old(doctors)
      ensures r == Fail(NotFound) <==> pk !in old(appointments)
      ensures r.Pass? <==> pk in old(appointments)
      ensures appointments == if r.Pass? && isPost then old(appointments)[pk := old(appointments)[pk].(status := Completed)]
                              else old(appointments)
    {
      if pk !in appointments {
        return Fail(NotFound);
      }
      if isPost {
        var a := appointments[pk];
        a := a.(status := Completed);
        appointments := appointments[pk := a];
      }
      r := Pass;
    }

    /** `appointment_cancel`: a POST marks the appointment cancelled, even a completed one. */
    method Cancel(pk: nat, isPost: bool) returns (r: Outcome<AppointmentError>)
      requires Valid()
      modifies this
      ensures Valid() && nextId == old(nextId) && patients == old(patients) && doctors == old(doctors)
      ensures r == Fail(NotFound) <==> pk !in old(appointments)
      ensures r.Pass? <==> pk in old(appointments)
      ensures appointments == if r.Pass? && isPost then old(appointments)[pk := old(appointments)[pk].(status := Cancelled)]
                              else old(appointments)
    {
      if pk !in appointments {
        return Fail(NotFound);
      }
      if isPost {
        var a := appointments[pk];
        a := a.(status := Cancelled);
        appointments := appointments[pk := a];
      }
      r := Pass;
    }
  }
}

=== FILE: attendance.dfy ===
/**
  Attendance and leave: the defaults a new record starts with, the hours
  an attendance record reports, the days a leave request covers, the
  approve and reject handlers, and the rows an employee's deletion removes.
*/
module Attendance {
  import opened Wrappers
  import opened Dates

  datatype AttendanceStatus = Present | Absent | HalfDay | OnLeave | Holiday

  /** A row of the attendance table; `employee` is the primary key of the employee. */
  datatype AttendanceRecord = AttendanceRecord(
    employee: nat,
    date: Date,
    checkIn: Option<Time>,
    checkOut: Option<Time>,
    status: AttendanceStatus)

  datatype LeaveType = Sick | Casual | Annual | Maternity | Emergency

  datatype LeaveStatus = Pending | Approved | Rejected | Cancelled

  /** A row of the leave table. */
  datatype Leave = Leave(
    employee: nat,
    leaveType: LeaveType,
    startDate: Date,
    endDate: Date,
    reason: string,
    status: LeaveStatus,
    approvedBy: string,
    remarks: string)

  /** A row of the employee-shift table: which shift an employee works from a date on. */
  datatype ShiftAssignment = ShiftAssignment(employee: nat, shift: nat, effectiveDate: Date, isCurrent: bool)

  datatype LeaveError = NotFound

  /** An attendance record as the table defaults create it: present, with the given times. */
  function NewAttendance(employee: nat, date: Date, checkIn: Option<Time>, checkOut: Option<Time>): (a: AttendanceRecord)
    ensures a.status == Present
    ensures a.employee == employee && a.date == date && a.checkIn == checkIn && a.checkOut == checkOut
  {
    AttendanceRecord(employee, date, checkIn, checkOut, Present)
  }

  /** A leave request as the table defaults create it: pending, not yet approved by anyone. */
  function NewLeave(employee: nat, kind: LeaveType, start: Date, end: Date, reason: string): (l: Leave)
    ensures l.status == Pending && l.approvedBy == "" && l.remarks == ""
    ensures l.employee == employee && l.startDate == start && l.endDate == end
  {
    Leave(employee, kind, start, end, reason, Pending, "", "")
  }

  /** `Attendance.working_hours`: both times on the record's own date, 0 when either is missing. */
  function RecordHours(a: AttendanceRecord): real {
    WorkingHours(a.checkIn, a.checkOut)
  }

  /** `Leave.total_days`: the inclusive count of days from the start to the end date. */
  function LeaveDays(l: Leave): int
    requires l.startDate.Valid() && l.endDate.Valid()
  {
    TotalDays(l.startDate, l.endDate)
  }

  /** A record missing either time reports no hours; one with both reports less than a day either way. */
  lemma RecordHoursBounds(a: AttendanceRecord)
    requires a.checkIn.Some? ==> a.checkIn.value.Valid()
    requires a.checkOut.Some? ==> a.checkOut.value.Valid()
    ensures a.checkIn.None? || a.checkOut.None? ==> RecordHours(a) == 0.0
    ensures -24.0 < RecordHours(a) < 24.0
  {
  }

  /** A leave covers at least one day exactly when it does not end before it starts. */
  lemma LeaveDaysPositive(l: Leave)
    requires l.startDate.Valid() && l.endDate.Valid()
    ensures LeaveDays(l) >= 1 <==> !Before(l.endDate, l.startDate)
    ensures LeaveDays(l) == 1 <==> l.startDate == l.endDate
  {
  }

  /** The three tables whose rows belong to an employee: attendance records, leaves and shift assignments. */
  class AttendanceBook {
    var records: map<nat, AttendanceRecord>
    var leaves: map<nat, Leave>
    var shifts: map<nat, ShiftAssignment>

    constructor ()
      ensures records == map[] && leaves == map[] && shifts == map[]
    {
      records := map[];
      leaves := map[];
      shifts := map[];
    }

    /**
      The cascade of deleting an employee (each foreign key to the employee
      is `on_delete=CASCADE`): the employee's attendance records, leaves and
      shift assignments go, and every other row stays as it was.
    */
    method RemoveEmployee(employee: nat)
      modifies this
      ensures records == map k | k in old(records) && old(records)[k].employee != employee :: old(records)[k]
      ensures leaves == map k | k in old(leaves) && old(leaves)[k].employee != employee :: old(leaves)[k]
      ensures shifts == map k | k in old(shifts) && old(shifts)[k].employee != employee :: old(shifts)[k]
      ensures forall k :: k in records ==> records[k].employee != employee
      ensures forall k :: k in leaves ==> leaves[k].employee != employee
      ensures forall k :: k in shifts ==> shifts[k].employee != employee
    {
      records := map k | k in records && records[k].employee != employee :: records[k];
      leaves := map k | k in leaves && leaves[k].employee != employee :: leaves[k];
      shifts := map k | k in shifts && shifts[k].employee != employee :: shifts[k];
    }

    /**
      `leave_approve`: a POST looks the leave up and marks it approved,
      whatever its status was; only the status changes. Any other request
      changes nothing.
    */
    method Approve(pk: nat, isPost: bool) returns (r: Outcome<LeaveError>)
      modifies this
      ensures r == Fail(NotFound) <==> isPost && pk !in old(leaves)
      ensures r.Pass? && isPost ==> leaves == old(leaves)[pk := old(leaves)[pk].(status := Approved)]
      ensures r.Fail? || !isPost ==> leaves == old(leaves)
      ensures records == old(records) && shifts == old(shifts)
    {
      if !isPost {
        return Pass;
      }
      if pk !in leaves {
        return Fail(NotFound);
      }
      var l := leaves[pk];
      l := l.(status := Approved);
      leaves := leaves[pk := l];
      r := Pass;
    }

    /**
      `leave_reject`: a POST looks the leave up and marks it rejected,
      whatever its status was; only the status changes. Any other request
      changes nothing.
    */
    method Reject(pk: nat, isPost: bool) returns (r: Outcome<LeaveError>)
      modifies this
      ensures r == Fail(NotFound) <==> isPost && pk !in old(leaves)
      ensures r.Pass? && isPost ==> leaves == old(leaves)[pk := old(leaves)[pk].(status := Rejected)]
      ensures r.Fail? || !isPost ==> leaves == old(leaves)
      ensures records == old(records) && shifts == old(shifts)
    {
      if !isPost {
        return Pass;
      }
      if pk !in leaves {
        return Fail(NotFound);
      }
      var l := leaves[pk];
      l := l.(status := Rejected);
      leaves := leaves[pk := l];
      r := Pass;
    }
  }
}

=== FILE: billing.dfy ===
/**
  Patient bills: the charge arithmetic, the derived balance and payment
  status that `Bill.save` stores, bill-number minting, and the create,
  update, delete and record-payment request handlers.

  Amounts are integers in minor currency units. The bill table is a map
  from primary key to row; `nextId` is the table's auto-increment counter.
*/
module Billing {
  import opened Wrappers
  import opened Identifiers

  datatype BillStatus = Unpaid | Partial | Paid

  /** The charge fields a bill is created or updated with. */
  datatype Charges = Charges(
    consultationFee: int,
    medicineCharges: int,
    labCharges: int,
    otherCharges: int,
    discount: int,
    tax: int)
  {
    /** `Bill.subtotal`: the four charges, before discount and tax. */
    function Subtotal(): int {
      consultationFee + medicineCharges + labCharges + otherCharges
    }

    /** The total both request handlers compute: subtotal less discount plus tax. */
    function Total(): int {
      Subtotal() - discount + tax
    }

    /** Every charge, the discount and the tax are non-negative. */
    predicate NonNegative() {
      consultationFee >= 0 && medicineCharges >= 0 && labCharges >= 0 && otherCharges >= 0 &&
      discount >= 0 && tax >= 0
    }
  }

  /** A row of the bill table. `patient` is the primary key of the billed patient. */
  datatype Bill = Bill(
    number: string,
    patient: nat,
    charges: Charges,
    totalAmount: int,
    amountPaid: int,
    balance: int,
    status: BillStatus)

  datatype BillError =
    | NotFound
    | NoPatientSelected
    | NonPositiveTotal
    | PaidExceedsTotal
    | NonPositivePayment
    | PaymentExceedsBalance
    | PatientNotFound
    | DuplicateBillNumber

  const BillPrefix: string := "BILL"
  const BillDigits: nat := 5

  // ---------------------------------------------------------------------------
  // Derived fields

  /** The payment status `Bill.save` stores for a bill with this total and amount paid. */
  function StatusFor(total: int, paid: int): (s: BillStatus)
    ensures s == Unpaid <==> paid <= 0
    ensures s == Paid <==> 0 < paid && total <= paid
    ensures s == Partial <==> 0 < paid < total
  {
    if paid <= 0 then Unpaid
    else if paid >= total then Paid
    else Partial
  }

  /** The balance `Bill.save` stores: total less paid, forced to 0 once the bill counts as paid. */
  function BalanceFor(total: int, paid: int): (b: int)
    ensures StatusFor(total, paid) == Paid ==> b == 0
    ensures StatusFor(total, paid) != Paid ==> b == total - paid
  {
    if 0 < paid && total <= paid then 0 else total - paid
  }

  /** A stored row whose balance and status are the ones `save` derives from its total and amount paid. */
  predicate Settled(b: Bill) {
    b.balance == BalanceFor(b.totalAmount, b.amountPaid) && b.status == StatusFor(b.totalAmount, b.amountPaid)
  }

  /** The status `bill_create` itself picks before handing the row to `save`. */
  function CreateFormStatus(total: int, paid: int): (s: BillStatus)
    ensures s == Unpaid <==> paid == 0
    ensures s == Paid <==> paid != 0 && total <= paid
    ensures s == Partial <==> paid != 0 && paid < total
  {
    if paid == 0 then Unpaid
    else if paid >= total then Paid
    else Partial
  }

  function Max(a: int, b: int): int {
    if a >= b then a else b
  }

  /**
    The stored balance is `max(total - paid, 0)` exactly when something has
    been paid or the payment does not exceed the total; a non-positive payment
    against a smaller total leaves a negative balance.
  */
  lemma BalanceIsClampedDifference(total: int, paid: int)
    ensures BalanceFor(total, paid) == Max(total - paid, 0) <==> (0 < paid || paid <= total)
    ensures BalanceFor(total, paid) >= 0 <==> (0 < paid || paid <= total)
  {
  }

  /** For a positive total the balance is zero exactly when the bill is paid. */
  lemma BalanceZeroIffPaid(total: int, paid: int)
    requires total > 0
    ensures BalanceFor(total, paid) == 0 <==> StatusFor(total, paid) == Paid
    ensures StatusFor(total, paid) != Paid ==> BalanceFor(total, paid) > 0
  {
  }

  /**
    The status `bill_create` computes agrees with the one `save` stores for
    every accepted amount paid that is not negative; for a negative one the
    form picks Partial and `save` stores Unpaid.
  */
  lemma CreateFormStatusOverridden(total: int, paid: int)
    requires 0 < total && paid <= total
    ensures CreateFormStatus(total, paid) == StatusFor(total, paid) <==> 0 <= paid
    ensures paid < 0 ==> CreateFormStatus(total, paid) == Partial && StatusFor(total, paid) == Unpaid
  {
  }

  // ---------------------------------------------------------------------------
  // Payments

  /**
    `record_payment` after its checks and `save`: the row with the payment
    added to the amount paid and balance and status derived again, or the
    error for a payment that is not positive or exceeds the stored balance.
  */
  function ApplyPayment(b: Bill, payment: int): (r: Result<Bill, BillError>)
    ensures r == Failure(NonPositivePayment) <==> payment <= 0
    ensures r == Failure(PaymentExceedsBalance) <==> 0 < payment && b.balance < payment
    ensures r.Success? <==> 0 < payment <= b.balance
    ensures r.Success? ==> Settled(r.value) && r.value.amountPaid == b.amountPaid + payment
    ensures r.Success? ==> r.value == b.(amountPaid := r.value.amountPaid, balance := r.value.balance, status := r.value.status)
  {
    if payment <= 0 then Failure(NonPositivePayment)
    else if payment > b.balance then Failure(PaymentExceedsBalance)
    else
      var paid := b.amountPaid + payment;
      Success(b.(amountPaid := paid, balance := BalanceFor(b.totalAmount, paid), status := StatusFor(b.totalAmount, paid)))
  }

  /**
    An accepted payment never takes a settled bill past its total, never
    moves its status backwards, and paying exactly the balance of a bill with
    a positive total makes it paid.
  */
  lemma PaymentWithinTotal(b: Bill, payment: int)
    requires Settled(b)
    requires ApplyPayment(b, payment).Success?
    ensures ApplyPayment(b, payment).value.amountPaid <= b.totalAmount
    ensures b.status != Paid
    ensures b.status == Partial ==> ApplyPayment(b, payment).value.status != Unpaid
    ensures payment == b.balance && b.totalAmount > 0 ==> ApplyPayment(b, payment).value.status == Paid
    ensures payment == b.balance ==> ApplyPayment(b, payment).value.balance == 0
  {
  }

  /** A paid bill takes no further payment, whatever its total. */
  lemma PaidBillRefusesPayment(b: Bill, payment: int)
    requires Settled(b) && b.status == Paid
    ensures ApplyPayment(b, payment).Failure?
  {
  }

  // ---------------------------------------------------------------------------
  // Bill numbers

  /** With no earlier bill the first number is the literal `BILL-00001`. */
  lemma FirstBillNumber(count: nat)
    ensures NextIdentifier(BillPrefix, BillDigits, None, count) == "BILL-00001"
    ensures NextIdentifier(BillPrefix, BillDigits, Some(""), count) == "BILL-00001"
  {
    assert ZeroPad(DecimalString(1), 5) == "00001";
  }

  /** `BILL-00042` is followed by `BILL-00043`, whatever the row count. */
  lemma BillNumberAfter42(count: nat)
    ensures NextIdentifier(BillPrefix, BillDigits, Some("BILL-00042"), count) == "BILL-00043"
  {
    Bill00042();
    Bill00043();
    FormatRoundTrip(BillPrefix, BillDigits, 42);
    assert SequenceNumber("BILL-00042") == Some(42);
  }

  lemma Bill00042()
    ensures Format(BillPrefix, BillDigits, 42) == "BILL-00042"
  {
    assert DecimalString(42) == "42";
    assert ZeroPad("42", 5) == "00042";
  }

  lemma Bill00043()
    ensures Format(BillPrefix, BillDigits, 43) == "BILL-00043"
  {
    assert DecimalString(43) == "43";
    assert ZeroPad("43", 5) == "00043";
  }

  /** A predecessor with no `-` falls back to the row count plus one. */
  lemma BillNumberFallback(last: string, count: nat)
    requires last != "" && '-' !in last
    ensures NextIdentifier(BillPrefix, BillDigits, Some(last), count) == Format(BillPrefix, BillDigits, count + 1)
  {
    assert AfterFirstDash(last).None?;
  }

  /** `GARBAGE` as predecessor with 7 bills in the table gives `BILL-00008`. */
  lemma BillNumberAfterGarbage()
    ensures NextIdentifier(BillPrefix, BillDigits, Some("GARBAGE"), 7) == "BILL-00008"
  {
    BillNumberFallback("GARBAGE", 7);
    assert DecimalString(8) == "8";
    assert ZeroPad("8", 5) == "00008";
  }

  /** The predecessor's prefix is ignored: only its second `-` field is read. */
  lemma BillNumberIgnoresPrefix(n: nat, count: nat)
    ensures NextIdentifier(BillPrefix, BillDigits, Some(Format("INV", 3, n)), count) == Format(BillPrefix, BillDigits, n + 1)
  {
    FormatRoundTrip("INV", 3, n);
  }

  // ---------------------------------------------------------------------------
  // The create form's checks

  /**
    The error `bill_create` reports for its form, in the order it checks:
    no patient selected, an unknown patient (the `Http404` is caught with
    the other exceptions), a total that is not positive, a payment above the
    total; `None` when the form passes. A negative payment is not refused.
  */
  function CreateFormError(patients: set<nat>, patient: Option<nat>, charges: Charges, amountPaid: int): (e: Option<BillError>)
    ensures e == Some(NoPatientSelected) <==> patient.None?
    ensures e == Some(PatientNotFound) <==> patient.Some? && patient.value !in patients
    ensures e == Some(NonPositiveTotal) <==> patient.Some? && patient.value in patients && charges.Total() <= 0
    ensures e == Some(PaidExceedsTotal) <==> patient.Some? && patient.value in patients && 0 < charges.Total() < amountPaid
    ensures e.None? <==> patient.Some? && patient.value in patients && 0 < charges.Total() && amountPaid <= charges.Total()
  {
    if patient.None? then Some(NoPatientSelected)
    else if patient.value !in patients then Some(PatientNotFound)
    else if charges.Total() <= 0 then Some(NonPositiveTotal)
    else if amountPaid > charges.Total() then Some(PaidExceedsTotal)
    else None
  }

  // ---------------------------------------------------------------------------
  // The bill table and its request handlers

  class BillLedger {
    var bills: map<nat, Bill>
    var nextId: nat
    /** The primary keys of the patient table, which a bill must refer to. */
    var patients: set<nat>

    /**
      Primary keys are below the counter, every stored bill has a number and
      the balance and status `save` derives, and bill numbers are unique, as
      the column's constraint demands.
    */
    ghost predicate Valid()
      reads this
    {
      (forall pk :: pk in bills ==> pk < nextId && bills[pk].number != "" && Settled(bills[pk])) &&
      (forall p, q :: p in bills && q in bills && p != q ==> bills[p].number != bills[q].number)
    }

    constructor (patients: set<nat>)
      ensures Valid() && bills == map[] && nextId == 0 && this.patients == patients
    {
      bills := map[];
      nextId := 0;
      this.patients := patients;
    }

    predicate NumberTaken(number: string)
      reads this
    {
      exists pk :: pk in bills && bills[pk].number == number
    }

    /** The number `save` gives a bill saved without one. */
    function NextNumber(): string
      reads this
    {
      NextIdentifier(BillPrefix, BillDigits, LastIssued(), |bills|)
    }

    /**
      The number of the bill with the highest primary key below `bound` whose
      number is not empty (`filter(...).exclude(bill_number='').order_by('-id').first()`).
    */
    function LastNumberBelow(bound: nat): (r: Option<string>)
      reads this
      ensures r.None? <==> forall pk :: pk in bills && pk < bound ==> bills[pk].number == ""
      ensures r.Some? ==> exists pk :: LastNumberedBelow(pk, bound) && bills[pk].number == r.value
      decreases bound
    {
      if bound == 0 then None
      else if bound - 1 in bills && bills[bound - 1].number != "" then
        assert LastNumberedBelow(bound - 1, bound);
        Some(bills[bound - 1].number)
      else
        var r := LastNumberBelow(bound - 1);
        assert forall pk :: LastNumberedBelow(pk, bound - 1) ==> LastNumberedBelow(pk, bound);
        r
    }

    /** `pk` holds a bill with a number, and every bill between it and `bound` has none. */
    ghost predicate LastNumberedBelow(pk: nat, bound: nat)
      reads this
    {
      pk in bills && pk < bound && bills[pk].number != "" &&
      forall q :: q in bills && pk < q < bound ==> bills[q].number == ""
    }

    function LastIssued(): Option<string>
      reads this
    {
      LastNumberBelow(nextId)
    }

    /**
      `Bill.save` on a row about to be written: a row without a number gets
      the next one, then balance and status are derived from the total and the
      amount paid. Saving a row that was already saved changes nothing.
    */
    method Save(b: Bill) returns (s: Bill)
      ensures s.number == if b.number != "" then b.number else NextIdentifier(BillPrefix, BillDigits, LastIssued(), |bills|)
      ensures s.number != "" && Settled(s)
      ensures s == b.(number := s.number, balance := s.balance, status := s.status)
      ensures b.number != "" && Settled(b) ==> s == b
    {
      s := b;
      if s.number == "" {
        var last := LastIssued();
        if last.Some? && last.value != "" {
          match SequenceNumber(last.value)
          case Some(n) =>
            s := s.(number := Format(BillPrefix, BillDigits, n + 1));
          case None =>
            s := s.(number := Format(BillPrefix, BillDigits, |bills| + 1));
        } else {
          FirstBillNumber(|bills|);
          s := s.(number := "BILL-00001");
        }
      }
      s := s.(balance := s.totalAmount - s.amountPaid);
      if s.amountPaid <= 0 {
        s := s.(status := Unpaid);
      } else if s.amountPaid >= s.totalAmount {
        s := s.(status := Paid, balance := 0);
      } else {
        s := s.(status := Partial);
      }
    }

    /**
      `bill_create`: check the form as `CreateFormError` says, then insert
      the saved row under the next primary key; a minted number that another
      bill already holds breaks the unique constraint and nothing is created.
    */
    method Create(patient: Option<nat>, charges: Charges, amountPaid: int) returns (r: Result<nat, BillError>)
      requires Valid()
      modifies this
      ensures Valid() && patients == old(patients)
      ensures CreateFormError(patients, patient, charges, amountPaid).Some? ==>
        r == Failure(CreateFormError(patients, patient, charges, amountPaid).value)
      ensures r == Failure(DuplicateBillNumber) <==>
        CreateFormError(patients, patient, charges, amountPaid).None? && old(NumberTaken(NextNumber()))
      ensures r.Success? <==>
        CreateFormError(patients, patient, charges, amountPaid).None? && !old(NumberTaken(NextNumber()))
      ensures r.Failure? ==> bills == old(bills) && nextId == old(nextId)
      ensures r.Success? ==> r.value == old(nextId) && nextId == old(nextId) + 1
      ensures r.Success? ==>
        bills == old(bills)[r.value := Bill(
          old(NextNumber()), patient.value, charges, charges.Total(), amountPaid,
          BalanceFor(charges.Total(), amountPaid), StatusFor(charges.Total(), amountPaid))]
    {
      var error := CreateFormError(patients, patient, charges, amountPaid);
      if error.Some? {
        return Failure(error.value);
      }
      var total := charges.Subtotal() - charges.discount + charges.tax;
      var status := CreateFormStatus(total, amountPaid);
      var b := Bill("", patient.value, charges, total, amountPaid, total - amountPaid, status);
      ghost var saved := b.(number := NextNumber(), balance := BalanceFor(total, amountPaid), status := StatusFor(total, amountPaid));
      ghost var taken := NumberTaken(NextNumber());
      r := Insert(b);
      assert r.Failure? <==> taken;
      assert r.Success? ==> bills == old(bills)[r.value := saved];
    }

    /**
      Saving a new bill: the saved row is inserted under the next primary
      key, unless its number is already held by another bill.
    */
    method Insert(b: Bill) returns (r: Result<nat, BillError>)
      requires Valid()
      modifies this
      ensures Valid() && patients == old(patients)
      ensures r.Failure? <==> old(NumberTaken(if b.number != "" then b.number else NextNumber()))
      ensures r.Failure? ==> r.error == DuplicateBillNumber && bills == old(bills) && nextId == old(nextId)
      ensures r.Success? ==> r.value == old(nextId) && nextId == old(nextId) + 1
      ensures r.Success? ==> bills == old(bills)[r.value := b.(
        number := if b.number != "" then b.number else old(NextNumber()),
        balance := BalanceFor(b.totalAmount, b.amountPaid),
        status := StatusFor(b.totalAmount, b.amountPaid))]
    {
      var saved := Save(b);
      if exists pk :: pk in bills && bills[pk].number == saved.number {
        return Failure(DuplicateBillNumber);
      }
      bills := bills[nextId := saved];
      r := Success(nextId);
      nextId := nextId + 1;
    }

    /**
      `bill_update`: on a POST, replace the charges and total of an existing
      bill and save it again; the amount paid and the number are kept.
    */
    method Update(pk: nat, charges: Charges, isPost: bool) returns (r: Outcome<BillError>)
      requires Valid()
      modifies this
      ensures Valid() && nextId == old(nextId)
      ensures r == Fail(NotFound) <==> pk !in old(bills)
      ensures r == Fail(NonPositiveTotal) <==> pk in old(bills) && isPost && charges.Total() <= 0
      ensures r.Pass? <==> pk in old(bills) && !(isPost && charges.Total() <= 0)
      ensures patients == old(patients)
      ensures r.Fail? || !isPost ==> bills == old(bills)
      ensures r.Pass? && isPost ==>
        var b := old(bills)[pk];
        bills == old(bills)[pk := b.(charges := charges, totalAmount := charges.Total(),
                                     balance := BalanceFor(charges.Total(), b.amountPaid),
                                     status := StatusFor(charges.Total(), b.amountPaid))]
    {
      if pk !in bills {
        return Fail(NotFound);
      }
      if !isPost {
        return Pass;
      }
      var total := charges.Subtotal() - charges.discount + charges.tax;
      if total <= 0 {
        return Fail(NonPositiveTotal);
      }
      var b := bills[pk].(charges := charges, totalAmount := total);
      var saved := Save(b);
      bills := bills[pk := saved];
      r := Pass;
    }

    /** `bill_delete`: only a POST removes the bill. */
    method Delete(pk: nat, isPost: bool) returns (r: Outcome<BillError>)
      requires Valid()
      modifies this
      ensures Valid() && nextId == old(nextId) && patients == old(patients)
      ensures r == Fail(NotFound) <==> pk !in old(bills)
      ensures r.Pass? <==> pk in old(bills)
      ensures bills == if pk in old(bills) && isPost then old(bills) - {pk} else old(bills)
    {
      if pk !in bills {
        return Fail(NotFound);
      }
      if isPost {
        bills := bills - {pk};
      }
      r := Pass;
    }

    /**
      `record_payment`: on a POST, a positive payment no larger than the
      stored balance is added to the amount paid and the bill saved again;
      anything else leaves the bill as it was.
    */
    method RecordPayment(pk: nat, payment: int, isPost: bool) returns (r: Outcome<BillError>)
      requires Valid()
      modifies this
      ensures Valid() && nextId == old(nextId) && patients == old(patients)
      ensures r == Fail(NotFound) <==> pk !in old(bills)
      ensures r == Fail(NotFound) || !isPost ==> bills == old(bills)
      ensures pk in old(bills) && isPost ==>
        match ApplyPayment(old(bills)[pk], payment)
        case Failure(e) => r == Fail(e) && bills == old(bills)
        case Success(b) => r == Pass && bills == old(bills)[pk := b]
      ensures pk in old(bills) && !isPost ==> r == Pass
      ensures r.Pass? && isPost ==> bills[pk].amountPaid <= bills[pk].totalAmount
    {
      if pk !in bills {
        return Fail(NotFound);
      }
      if !isPost {
        return Pass;
      }
      var b := bills[pk];
      if payment <= 0 {
        return Fail(NonPositivePayment);
      }
      if payment > b.balance {
        return Fail(PaymentExceedsBalance);
      }
      PaymentWithinTotal(b, payment);
      b := b.(amountPaid := b.amountPaid + payment);
      var saved := Save(b);
      bills := bills[pk := saved];
      r := Pass;
    }
  }
}

=== FILE: billing_report.dfy ===
/**
  The daily billing report (`daily_billing_report`): the date the report
  is for, and the totals, status counts and revenue breakdown over that
  day's bills.
*/
module BillingReport {
  import opened Wrappers
  import opened Dates
  import opened Billing

  /**
    The report date as written: `?date=` is read with the format
    `%Y-%m-d`; `None` is the unhandled ValueError (a server error).
    A missing or empty parameter means today.
  */
  function ReportDateAsWritten(param: Option<string>, today: Date): (r: Option<Date>)
    ensures param.None? || param.value == "" ==> r == Some(today)
    ensures r.Some? && param.Some? && param.value != "" ==> r.value.Valid() && r.value.day == 1
  {
    if param.None? || param.value == "" then Some(today) else ParseAsWritten(param.value)
  }

  /** The report date read with `%Y-%m-%d`, the format the daily appointments report uses. */
  function ReportDate(param: Option<string>, today: Date): (r: Option<Date>)
    ensures param.None? || param.value == "" ==> r == Some(today)
    ensures r.Some? && param.Some? && param.value != "" ==> r.value.Valid()
  {
    if param.None? || param.value == "" then Some(today) else ParseIsoDate(param.value)
  }

  /**
    As written, a report for any explicit date in the `YYYY-MM-DD` form fails,
    while the corrected reading returns exactly that date.
  */
  lemma ExplicitDateFails(d: Date, today: Date)
    requires d.Valid()
    ensures ReportDateAsWritten(Some(IsoFormat(d)), today) == None
    ensures ReportDate(Some(IsoFormat(d)), today) == Some(d)
  {
    IsoRoundTrip(d);
    AsWrittenRefusesEveryIsoFormat(d);
  }

  // ---------------------------------------------------------------------------
  // Totals over one day's bills

  function SumTotal(bs: seq<Bill>): int {
    if bs == [] then 0 else SumTotal(bs[..|bs| - 1]) + bs[|bs| - 1].totalAmount
  }

  function SumPaid(bs: seq<Bill>): int {
    if bs == [] then 0 else SumPaid(bs[..|bs| - 1]) + bs[|bs| - 1].amountPaid
  }

  function SumBalance(bs: seq<Bill>): int {
    if bs == [] then 0 else SumBalance(bs[..|bs| - 1]) + bs[|bs| - 1].balance
  }

  /** `pending_amount`: the day's total billed less the day's total paid. */
  function PendingAmount(bs: seq<Bill>): int {
    SumTotal(bs) - SumPaid(bs)
  }

  function CountStatus(bs: seq<Bill>, st: BillStatus): (n: nat)
    ensures n <= |bs|
  {
    if bs == [] then 0 else CountStatus(bs[..|bs| - 1], st) + (if bs[|bs| - 1].status == st then 1 else 0)
  }

  /** `partial_amount`: the amount paid on the day's partly paid bills. */
  function PartialAmount(bs: seq<Bill>): int {
    if bs == [] then 0
    else PartialAmount(bs[..|bs| - 1]) + (if bs[|bs| - 1].status == Partial then bs[|bs| - 1].amountPaid else 0)
  }

  /** The revenue breakdown: consultation, medicine, lab and other charges, each summed over the day. */
  function SumCharges(bs: seq<Bill>): (r: (int, int, int, int)) {
    if bs == [] then (0, 0, 0, 0)
    else
      var s := SumCharges(bs[..|bs| - 1]);
      var c := bs[|bs| - 1].charges;
      (s.0 + c.consultationFee, s.1 + c.medicineCharges, s.2 + c.labCharges, s.3 + c.otherCharges)
  }

  function SumSubtotal(bs: seq<Bill>): int {
    if bs == [] then 0 else SumSubtotal(bs[..|bs| - 1]) + bs[|bs| - 1].charges.Subtotal()
  }

  function SumDiscount(bs: seq<Bill>): int {
    if bs == [] then 0 else SumDiscount(bs[..|bs| - 1]) + bs[|bs| - 1].charges.discount
  }

  function SumTax(bs: seq<Bill>): int {
    if bs == [] then 0 else SumTax(bs[..|bs| - 1]) + bs[|bs| - 1].charges.tax
  }

  /** Every bill has exactly one status, so the three status counts add up to the number of bills. */
  lemma {:induction false} StatusCountsPartition(bs: seq<Bill>)
    ensures CountStatus(bs, Paid) + CountStatus(bs, Unpaid) + CountStatus(bs, Partial) == |bs|
  {
    if bs != [] {
      StatusCountsPartition(bs[..|bs| - 1]);
    }
  }

  /**
    Over settled bills the pending amount never exceeds the sum of the
    stored balances, and equals it exactly when no paid bill was overpaid.
  */
  lemma {:induction false} PendingVersusBalances(bs: seq<Bill>)
    requires forall k :: 0 <= k < |bs| ==> Settled(bs[k])
    ensures PendingAmount(bs) <= SumBalance(bs)
    ensures PendingAmount(bs) == SumBalance(bs) <==>
              forall k :: 0 <= k < |bs| ==> (bs[k].status == Paid ==> bs[k].amountPaid == bs[k].totalAmount)
  {
    if bs != [] {
      var init := bs[..|bs| - 1];
      assert forall k :: 0 <= k < |init| ==> init[k] == bs[k];
      PendingVersusBalances(init);
    }
  }

  /** The four breakdown totals add up to the day's subtotal. */
  lemma {:induction false} BreakdownAddsUp(bs: seq<Bill>)
    ensures var s := SumCharges(bs); s.0 + s.1 + s.2 + s.3 == SumSubtotal(bs)
  {
    if bs != [] {
      BreakdownAddsUp(bs[..|bs| - 1]);
    }
  }

  /**
    When every bill's total is the one the billing views compute from its
    charges, the day's total is its subtotal less discounts plus taxes.
  */
  lemma {:induction false} TotalFromCharges(bs: seq<Bill>)
    requires forall k :: 0 <= k < |bs| ==> bs[k].totalAmount == bs[k].charges.Total()
    ensures SumTotal(bs) == SumSubtotal(bs) - SumDiscount(bs) + SumTax(bs)
  {
    if bs != [] {
      var init := bs[..|bs| - 1];
      assert forall k :: 0 <= k < |init| ==> init[k] == bs[k];
      TotalFromCharges(init);
    }
  }

  /** The amount paid on partly paid bills is part of the day's total paid when no amount paid is negative. */
  lemma {:induction false} PartialWithinPaid(bs: seq<Bill>)
    requires forall k :: 0 <= k < |bs| ==> bs[k].amountPaid >= 0
    ensures 0 <= PartialAmount(bs) <= SumPaid(bs)
  {
    if bs != [] {
      var init := bs[..|bs| - 1];
      assert forall k :: 0 <= k < |init| ==> init[k] == bs[k];
      PartialWithinPaid(init);
    }
  }
}

=== FILE: dates.dfy ===
/**
  Calendar arithmetic shared by patients, employees and attendance: ages
  from a date of birth, proleptic Gregorian day numbers (Python's
  `date.toordinal`), inclusive leave-day counts, check-in/check-out
  durations, and the two `strptime` formats the daily billing report uses.
*/
module Dates {
  import opened Wrappers
  import opened Identifiers

  /** A calendar date; `Valid()` is what Python's `date` constructor accepts. */
  datatype Date = Date(year: int, month: int, day: int) {
    predicate Valid() {
      1 <= year <= 9999 && 1 <= month <= 12 && 1 <= day <= DaysInMonth(year, month)
    }
  }

  predicate IsLeap(y: int) {
    y % 4 == 0 && (y % 100 != 0 || y % 400 == 0)
  }

  function DaysInMonth(y: int, m: int): (n: int)
    ensures 28 <= n <= 31
  {
    if m == 2 then (if IsLeap(y) then 29 else 28)
    else if m == 4 || m == 6 || m == 9 || m == 11 then 30
    else 31
  }

  /** Python's tuple comparison `(a.year, a.month, a.day) < (b.year, b.month, b.day)`. */
  predicate Before(a: Date, b: Date) {
    a.year < b.year || (a.year == b.year && (a.month < b.month || (a.month == b.month && a.day < b.day)))
  }

  /** `(today.month, today.day) < (dob.month, dob.day)`: the birthday has not come yet this year. */
  predicate BirthdayAhead(dob: Date, today: Date) {
    today.month < dob.month || (today.month == dob.month && today.day < dob.day)
  }

  /** `Patient.age` and `Employee.age`: the year difference, less one while this year's birthday is still ahead. */
  function Age(dob: Date, today: Date): (age: int)
    ensures !Before(today, Anniversary(dob, age)) && Before(today, Anniversary(dob, age + 1))
  {
    today.year - dob.year - (if BirthdayAhead(dob, today) then 1 else 0)
  }

  /** The `k`-th anniversary of `d`, compared as a (year, month, day) tuple whether or not it is a real date. */
  function Anniversary(d: Date, k: int): Date {
    Date(d.year + k, d.month, d.day)
  }

  /**
    The age is the number of whole years lived: the `k` whose anniversary is
    on or before today while the next one is after it.
  */
  lemma AgeCountsAnniversaries(dob: Date, today: Date, k: int)
    ensures Age(dob, today) == k <==> !Before(today, Anniversary(dob, k)) && Before(today, Anniversary(dob, k + 1))
  {
  }

  /** On the birthday itself the age is the plain year difference. */
  lemma AgeOnBirthday(dob: Date, year: int)
    ensures Age(dob, Date(year, dob.month, dob.day)) == year - dob.year
  {
  }

  /**
    On the day before the birthday the age is one less than the year
    difference, including a birthday on the 1st, whose eve is the last day of
    the previous month or year.
  */
  lemma AgeDayBeforeBirthday(dob: Date, year: int)
    requires Date(year, dob.month, dob.day).Valid() && Date(year, dob.month, dob.day) != Date(1, 1, 1)
    ensures Age(dob, PreviousDay(Date(year, dob.month, dob.day))) == year - dob.year - 1
  {
  }

  /** Nobody born on or before today has a negative age, and nobody born after today has a positive one. */
  lemma AgeNonNegative(dob: Date, today: Date)
    ensures !Before(today, dob) ==> Age(dob, today) >= 0
    ensures Before(today, dob) ==> Age(dob, today) < 0
  {
  }

  // ---------------------------------------------------------------------------
  // Day numbers

  /** Days in the months of year `y` before month `m`. */
  function DaysBeforeMonth(y: int, m: int): (n: int)
    requires 1 <= m <= 13
    ensures n >= 0
  {
    if m == 1 then 0 else DaysBeforeMonth(y, m - 1) + DaysInMonth(y, m - 1)
  }

  /** Days in the years before year `y`, counting from 1 January of year 1. */
  function DaysBeforeYear(y: int): int {
    var p := y - 1;
    p * 365 + p / 4 - p / 100 + p / 400
  }

  /** `date.toordinal()`: 1 January of year 1 is day 1. */
  function Ordinal(d: Date): int
    requires d.Valid()
  {
    DaysBeforeYear(d.year) + DaysBeforeMonth(d.year, d.month) + d.day
  }

  lemma YearLength(y: int)
    ensures DaysBeforeMonth(y, 13) == if IsLeap(y) then 366 else 365
  {
    var feb := DaysInMonth(y, 2);
    assert DaysBeforeMonth(y, 2) == 31;
    assert DaysBeforeMonth(y, 3) == 31 + feb;
    assert DaysBeforeMonth(y, 4) == 62 + feb;
    assert DaysBeforeMonth(y, 5) == 92 + feb;
    assert DaysBeforeMonth(y, 6) == 123 + feb;
    assert DaysBeforeMonth(y, 7) == 153 + feb;
    assert DaysBeforeMonth(y, 8) == 184 + feb;
    assert DaysBeforeMonth(y, 9) == 215 + feb;
    assert DaysBeforeMonth(y, 10) == 245 + feb;
    assert DaysBeforeMonth(y, 11) == 276 + feb;
    assert DaysBeforeMonth(y, 12) == 306 + feb;
  }

  lemma YearStep(y: int)
    ensures DaysBeforeYear(y + 1) == DaysBeforeYear(y) + DaysBeforeMonth(y, 13)
  {
    var p := y - 1;
    assert DaysBeforeYear(y) == p * 365 + p / 4 - p / 100 + p / 400;
    assert DaysBeforeYear(y + 1) == y * 365 + y / 4 - y / 100 + y / 400;
    YearLength(y);
    QuotientStep4(p);
    QuotientStep100(p);
    QuotientStep400(p);
    DivisibilityChain(y);
  }

  lemma DivisibilityChain(y: int)
    ensures y % 400 == 0 ==> y % 100 == 0
    ensures y % 100 == 0 ==> y % 4 == 0
  {
    if y % 400 == 0 {
      MultipleOf400(y / 400);
    }
    if y % 100 == 0 {
      MultipleOf100(y / 100);
    }
  }

  lemma MultipleOf400(k: int)
    ensures (400 * k) % 100 == 0
  {
  }

  lemma MultipleOf100(k: int)
    ensures (100 * k) % 4 == 0
  {
  }

  lemma QuotientStep4(p: int)
    ensures (p + 1) / 4 == p / 4 + (if (p + 1) % 4 == 0 then 1 else 0)
  {
  }

  lemma QuotientStep100(p: int)
    ensures (p + 1) / 100 == p / 100 + (if (p + 1) % 100 == 0 then 1 else 0)
  {
  }

  lemma QuotientStep400(p: int)
    ensures (p + 1) / 400 == p / 400 + (if (p + 1) % 400 == 0 then 1 else 0)
  {
  }

  lemma {:induction false} YearsMonotone(y: int, z: int)
    requires y <= z
    ensures DaysBeforeYear(y) + (z - y) * 365 <= DaysBeforeYear(z)
    decreases z - y
  {
    if y < z {
      YearsMonotone(y + 1, z);
      YearStep(y);
      YearLength(y);
    }
  }

  lemma {:induction false} MonthsMonotone(y: int, m: int, n: int)
    requires 1 <= m <= n <= 13
    ensures DaysBeforeMonth(y, m) + (n - m) * 28 <= DaysBeforeMonth(y, n)
    decreases n - m
  {
    if m < n {
      MonthsMonotone(y, m, n - 1);
    }
  }

  /** The day number preserves the calendar order in both directions, so it is one-to-one on valid dates. */
  lemma OrdinalOrder(a: Date, b: Date)
    requires a.Valid() && b.Valid()
    ensures Before(a, b) <==> Ordinal(a) < Ordinal(b)
    ensures a == b <==> Ordinal(a) == Ordinal(b)
  {
    if Before(a, b) {
      OrdinalIncreasing(a, b);
    } else if Before(b, a) {
      OrdinalIncreasing(b, a);
    }
  }

  lemma OrdinalIncreasing(a: Date, b: Date)
    requires a.Valid() && b.Valid() && Before(a, b)
    ensures Ordinal(a) < Ordinal(b)
  {
    if a.year < b.year {
      MonthsMonotone(a.year, a.month + 1, 13);
      YearStep(a.year);
      YearsMonotone(a.year + 1, b.year);
    } else if a.month < b.month {
      MonthsMonotone(a.year, a.month + 1, b.month);
    }
  }

  /** The day after the last of a month is the first of the next month, one day number later. */
  lemma MonthBoundary(y: int, m: int)
    requires 1 <= y <= 9999 && 1 <= m < 12
    ensures Ordinal(Date(y, m + 1, 1)) == Ordinal(Date(y, m, DaysInMonth(y, m))) + 1
  {
  }

  /** 1 January follows 31 December by one day number. */
  lemma YearBoundary(y: int)
    requires 1 <= y < 9999
    ensures Ordinal(Date(y + 1, 1, 1)) == Ordinal(Date(y, 12, 31)) + 1
  {
    YearStep(y);
  }

  /** `d - timedelta(days=1)`: the calendar day before `d`, one day number earlier. */
  function PreviousDay(d: Date): (r: Date)
    requires d.Valid() && d != Date(1, 1, 1)
    ensures r.Valid() && Ordinal(r) == Ordinal(d) - 1
  {
    if d.day > 1 then Date(d.year, d.month, d.day - 1)
    else if d.month > 1 then
      MonthBoundary(d.year, d.month - 1);
      Date(d.year, d.month - 1, DaysInMonth(d.year, d.month - 1))
    else
      YearBoundary(d.year - 1);
      Date(d.year - 1, 12, 31)
  }

  // ---------------------------------------------------------------------------
  // Leave days

  /**
    `Leave.total_days`: `(end_date - start_date).days + 1`, counting both
    ends. A one-day leave counts 1; a later end counts at least 2; an end
    before the start, which nothing rejects, counts 0 or less.
  */
  function TotalDays(start: Date, end: Date): (n: int)
    requires start.Valid() && end.Valid()
    ensures start == end <==> n == 1
    ensures Before(start, end) <==> n >= 2
    ensures Before(end, start) <==> n <= 0
  {
    OrdinalOrder(start, end);
    Ordinal(end) - Ordinal(start) + 1
  }

  /** Adjacent leaves add up: the days of `[a, b]` and `[b, c]` count `b` twice. */
  lemma TotalDaysAdditive(a: Date, b: Date, c: Date)
    requires a.Valid() && b.Valid() && c.Valid()
    ensures TotalDays(a, b) + TotalDays(b, c) == TotalDays(a, c) + 1
  {
  }

  /** 28 February to 1 March spans 29 February exactly in a leap year. */
  lemma FebruaryLeave(y: int)
    requires 1 <= y <= 9999
    ensures TotalDays(Date(y, 2, 28), Date(y, 3, 1)) == if IsLeap(y) then 3 else 2
  {
    MonthBoundary(y, 2);
  }

  // ---------------------------------------------------------------------------
  // Working hours

  /** A time of day with microseconds, what a `TimeField` holds. */
  datatype Time = Time(hour: int, minute: int, second: int, microsecond: int) {
    predicate Valid() {
      0 <= hour < 24 && 0 <= minute < 60 && 0 <= second < 60 && 0 <= microsecond < 1000000
    }
  }

  function Micros(t: Time): int {
    ((t.hour * 60 + t.minute) * 60 + t.second) * 1000000 + t.microsecond
  }

  const MicrosPerHour: int := 3600000000

  /**
    `Attendance.working_hours`: both times placed on the same date, their
    difference in hours; a missing time counts as no hours worked, and two
    real times of day are less than 24 hours apart either way.
  */
  function WorkingHours(checkIn: Option<Time>, checkOut: Option<Time>): (h: real)
    ensures checkIn.None? || checkOut.None? ==> h == 0.0
    ensures checkIn.Some? && checkOut.Some? && checkIn.value.Valid() && checkOut.value.Valid() ==> -24.0 < h < 24.0
  {
    if checkIn.Some? && checkOut.Some? then
      MicrosRange(checkIn.value);
      MicrosRange(checkOut.value);
      (Micros(checkOut.value) - Micros(checkIn.value)) as real / MicrosPerHour as real
    else 0.0
  }

  lemma MicrosRange(t: Time)
    ensures t.Valid() ==> 0 <= Micros(t) < 24 * MicrosPerHour
  {
  }

  /**
    The hours are negative exactly when the check-out time is earlier in the
    day than the check-in time (no overnight shifts), and zero exactly when
    the two times are the same.
  */
  lemma WorkingHoursSign(checkIn: Time, checkOut: Time)
    requires checkIn.Valid() && checkOut.Valid()
    ensures WorkingHours(Some(checkIn), Some(checkOut)) < 0.0 <==> Micros(checkOut) < Micros(checkIn)
    ensures WorkingHours(Some(checkIn), Some(checkOut)) == 0.0 <==> checkIn == checkOut
  {
    MicrosRange(checkIn);
    MicrosRange(checkOut);
    MicrosInjective(checkIn, checkOut);
  }

  lemma MicrosInjective(a: Time, b: Time)
    requires a.Valid() && b.Valid()
    ensures Micros(a) == Micros(b) <==> a == b
  {
  }

  /** Splitting a shift at any time in between splits its hours. */
  lemma WorkingHoursAdditive(a: Time, b: Time, c: Time)
    ensures WorkingHours(Some(a), Some(b)) + WorkingHours(Some(b), Some(c)) == WorkingHours(Some(a), Some(c))
  {
  }

  // ---------------------------------------------------------------------------
  // Parsing request dates with `datetime.strptime`

  /** `%Y`: exactly four digits; `date` refuses year 0. */
  function ParseYear(f: string): (r: Option<int>)
    ensures r.Some? ==> 1 <= r.value <= 9999
  {
    if |f| == 4 && AllDigits(f) && DigitsValue(f) >= 1 then
      DigitsValueBound(f);
      assert Pow10(4) == 10000;
      Some(DigitsValue(f))
    else None
  }

  lemma {:induction false} DigitsValueBound(f: string)
    requires AllDigits(f)
    ensures DigitsValue(f) < Pow10(|f|)
  {
    if f != [] {
      DigitsValueBound(f[..|f| - 1]);
    }
  }

  /** `%m`: one or two digits worth 1 to 12 (`1[0-2]|0[1-9]|[1-9]`). */
  function ParseMonth(f: string): (r: Option<int>)
    ensures r.Some? ==> 1 <= r.value <= 12
  {
    if 1 <= |f| <= 2 && AllDigits(f) && 1 <= DigitsValue(f) <= 12 then Some(DigitsValue(f)) else None
  }

  /** `%d`: one or two digits worth 1 to 31, or a space and a digit 1 to 9 (`3[01]|[12]\d|0[1-9]|[1-9]| [1-9]`). */
  function ParseDay(f: string): (r: Option<int>)
    ensures r.Some? ==> 1 <= r.value <= 31
    ensures r.Some? ==> f != [] && f[|f| - 1] != 'd' && f[|f| - 1] != 'D'
  {
    if |f| == 2 && f[0] == ' ' && '1' <= f[1] <= '9' then Some(f[1] as int - '0' as int)
    else if 1 <= |f| <= 2 && AllDigits(f) && 1 <= DigitsValue(f) <= 31 then Some(DigitsValue(f))
    else None
  }

  /**
    The three `-`-separated fields of a `%Y-%m-...` request value: four
    characters, a dash, the text up to the next dash, and everything after it.
  */
  function DateFields(s: string): (r: Option<(string, string, string)>)
    ensures r.Some? ==> s == r.value.0 + "-" + r.value.1 + "-" + r.value.2
    ensures r.Some? ==> |r.value.0| == 4 && '-' !in r.value.1
  {
    if |s| < 5 || s[4] != '-' then None
    else
      var rest := s[5..];
      var m := UpToDash(rest);
      if |m| == |rest| then None
      else
        assert rest == m + "-" + rest[|m| + 1..];
        Some((s[..4], m, rest[|m| + 1..]))
  }

  /** `datetime.strptime(s, '%Y-%m-%d').date()`; `None` where it raises ValueError. */
  function ParseIsoDate(s: string): (r: Option<Date>)
    ensures r.Some? ==> r.value.Valid()
  {
    match DateFields(s)
    case None => None
    case Some((y, m, d)) =>
      if ParseYear(y).Some? && ParseMonth(m).Some? && ParseDay(d).Some? &&
         Date(ParseYear(y).value, ParseMonth(m).value, ParseDay(d).value).Valid()
      then Some(Date(ParseYear(y).value, ParseMonth(m).value, ParseDay(d).value))
      else None
  }

  /**
    `datetime.strptime(s, '%Y-%m-d').date()`, the format as written: after
    the month it expects the literal letter `d` (matched without regard to
    case) and leaves the day at 1.
  */
  function ParseAsWritten(s: string): (r: Option<Date>)
    ensures r.Some? ==> r.value.Valid() && r.value.day == 1
  {
    match DateFields(s)
    case None => None
    case Some((y, m, d)) =>
      if ParseYear(y).Some? && ParseMonth(m).Some? && (d == "d" || d == "D")
      then Some(Date(ParseYear(y).value, ParseMonth(m).value, 1))
      else None
  }

  /** `date.isoformat()`: `YYYY-MM-DD`, the value an HTML date input sends. */
  function IsoFormat(d: Date): string
    requires d.Valid()
  {
    ZeroPad(DecimalString(d.year), 4) + "-" + ZeroPad(DecimalString(d.month), 2) + "-" + ZeroPad(DecimalString(d.day), 2)
  }

  function Pow10(k: nat): nat {
    if k == 0 then 1 else 10 * Pow10(k - 1)
  }

  lemma {:induction false} DecimalStringLength(n: nat, k: nat)
    requires 1 <= k && n < Pow10(k)
    ensures |DecimalString(n)| <= k
  {
    if n >= 10 {
      assert Pow10(1) == 10;
      DecimalStringLength(n / 10, k - 1);
    }
  }

  /** A field of `width` characters holding `n`, zero-padded. */
  lemma PaddedField(n: nat, width: nat)
    requires 1 <= width && n < Pow10(width)
    ensures |ZeroPad(DecimalString(n), width)| == width
    ensures AllDigits(ZeroPad(DecimalString(n), width)) && '-' !in ZeroPad(DecimalString(n), width)
    ensures DigitsValue(ZeroPad(DecimalString(n), width)) == n
  {
    DecimalStringLength(n, width);
    PaddedValue(n, width);
  }

  /** Every valid date survives a trip through `isoformat` and the `%Y-%m-%d` parser. */
  lemma IsoRoundTrip(d: Date)
    requires d.Valid()
    ensures ParseIsoDate(IsoFormat(d)) == Some(d)
  {
    var y := ZeroPad(DecimalString(d.year), 4);
    var m := ZeroPad(DecimalString(d.month), 2);
    var dd := ZeroPad(DecimalString(d.day), 2);
    YearField(d.year);
    MonthField(d.month);
    DayField(d.day);
    IsoFields(y, m, dd);
    ParsedFields(y + "-" + m + "-" + dd, y, m, dd, d);
  }

  lemma ParsedFields(s: string, y: string, m: string, dd: string, d: Date)
    requires d.Valid() && DateFields(s) == Some((y, m, dd))
    requires ParseYear(y) == Some(d.year) && ParseMonth(m) == Some(d.month) && ParseDay(dd) == Some(d.day)
    ensures ParseIsoDate(s) == Some(d)
  {
  }

  lemma YearField(n: nat)
    requires 1 <= n <= 9999
    ensures '-' !in ZeroPad(DecimalString(n), 4)
    ensures ParseYear(ZeroPad(DecimalString(n), 4)) == Some(n)
  {
    assert Pow10(4) == 10000;
    PaddedField(n, 4);
  }

  lemma MonthField(n: nat)
    requires 1 <= n <= 12
    ensures '-' !in ZeroPad(DecimalString(n), 2)
    ensures ParseMonth(ZeroPad(DecimalString(n), 2)) == Some(n)
  {
    assert Pow10(2) == 100;
    PaddedField(n, 2);
  }

  lemma DayField(n: nat)
    requires 1 <= n <= 31
    ensures ParseDay(ZeroPad(DecimalString(n), 2)) == Some(n)
  {
    assert Pow10(2) == 100;
    PaddedField(n, 2);
    var f := ZeroPad(DecimalString(n), 2);
    assert IsDigit(f[0]) && f[0] != ' ';
    DigitDay(f, n);
  }

  lemma DigitDay(f: string, n: int)
    requires |f| == 2 && AllDigits(f) && f[0] != ' ' && DigitsValue(f) == n && 1 <= n <= 31
    ensures ParseDay(f) == Some(n)
  {
  }

  lemma IsoFields(y: string, m: string, d: string)
    requires |y| == 4 && '-' !in m
    ensures DateFields(y + "-" + m + "-" + d) == Some((y, m, d))
  {
    var s := y + "-" + m + "-" + d;
    assert s[5..] == m + "-" + d;
    assert UpToDash(m + "-" + d) == m by {
      UpToDashStops(m, d);
    }
    assert (m + "-" + d)[|m| + 1..] == d;
    assert s[..4] == y;
  }

  lemma {:induction false} UpToDashStops(m: string, d: string)
    requires '-' !in m
    ensures UpToDash(m + "-" + d) == m
  {
    if m != [] {
      assert (m + "-" + d)[1..] == m[1..] + "-" + d;
      UpToDashStops(m[1..], d);
      assert [m[0]] + m[1..] == m;
    }
  }

  /**
    The two formats never agree on a value: whatever `%Y-%m-%d` accepts,
    `%Y-%m-d` refuses, and in particular every `isoformat` date.
  */
  lemma AsWrittenRefusesIsoDates(s: string)
    ensures ParseIsoDate(s).Some? ==> ParseAsWritten(s).None?
  {
  }

  lemma AsWrittenRefusesEveryIsoFormat(d: Date)
    requires d.Valid()
    ensures ParseAsWritten(IsoFormat(d)) == None
  {
    IsoRoundTrip(d);
    AsWrittenRefusesIsoDates(IsoFormat(d));
  }

  /** `2024-05-17` is refused as written and read correctly with `%d`; `2024-05-d` is accepted as 1 May. */
  lemma AsWrittenExamples()
    ensures ParseAsWritten("2024-05-17") == None
    ensures ParseIsoDate("2024-05-17") == Some(Date(2024, 5, 17))
    ensures ParseAsWritten("2024-05-d") == Some(Date(2024, 5, 1))
  {
    ExampleFields();
    Year2024();
    Month05();
    Day17();
    ParsedFields("2024-05-17", "2024", "05", "17", Date(2024, 5, 17));
    AsWrittenRefusesIsoDates("2024-05-17");
    AsWrittenFirstOfMay();
  }

  lemma AsWrittenFirstOfMay()
    ensures ParseAsWritten("2024-05-d") == Some(Date(2024, 5, 1))
  {
    ExampleFields();
    Year2024();
    Month05();
  }

  /** How both example strings split on `-`. */
  lemma ExampleFields()
    ensures DateFields("2024-05-17") == Some(("2024", "05", "17"))
    ensures DateFields("2024-05-d") == Some(("2024", "05", "d"))
  {
    IsoFields("2024", "05", "17");
    assert "2024" + "-" + "05" + "-" + "17" == "2024-05-17";
    IsoFields("2024", "05", "d");
    assert "2024" + "-" + "05" + "-" + "d" == "2024-05-d";
  }

  lemma Year2024()
    ensures ParseYear("2024") == Some(2024)
  {
    Year2024Month05();
    YearField(2024);
  }

  lemma Month05()
    ensures ParseMonth("05") == Some(5)
  {
    Year2024Month05();
    MonthField(5);
  }

  lemma Year2024Month05()
    ensures ZeroPad(DecimalString(2024), 4) == "2024"
    ensures ZeroPad(DecimalString(5), 2) == "05"
  {
    assert DecimalString(20) == "20";
    assert DecimalString(202) == "202";
    assert DecimalString(2024) == "2024";
  }

  lemma Day17()
    ensures ParseDay("17") == Some(17)
  {
    assert DecimalString(17) == "17" by {
      assert DecimalString(1) == "1";
    }
    DayField(17);
  }
}

=== FILE: doctor_report.dfy ===
/**
  The doctor appointments report (`doctor_appointments_report`): one line
  of counts per doctor over the appointments in the chosen date range, the
  grand totals, the lines sorted by appointment count, the number of
  active doctors, the overall completion rate and the three doctors with
  the best completion rate.
*/
module DoctorReport {
  import opened Appointments

  /** One line of the report. `completionRate` is a percentage. */
  datatype DoctorStat = DoctorStat(
    doctor: nat,
    total: nat,
    completed: nat,
    pending: nat,
    confirmed: nat,
    cancelled: nat,
    completionRate: real)

  /** The two keys the report sorts its lines by. */
  datatype SortKey = ByTotal | ByRate

  function Key(s: DoctorStat, k: SortKey): real {
    match k
    case ByTotal => s.total as real
    case ByRate => s.completionRate
  }

  // ---------------------------------------------------------------------------
  // Counting one doctor's appointments

  /** The number of `appts` booked with doctor `d`. */
  function Total(appts: seq<Appointment>, d: nat): nat {
    if appts == [] then 0
    else Total(appts[..|appts| - 1], d) + (if appts[|appts| - 1].doctor == d then 1 else 0)
  }

  /** The number of `appts` booked with doctor `d` that have status `st`. */
  function CountStatus(appts: seq<Appointment>, d: nat, st: AppointmentStatus): nat {
    if appts == [] then 0
    else
      var a := appts[|appts| - 1];
      CountStatus(appts[..|appts| - 1], d, st) + (if a.doctor == d && a.status == st then 1 else 0)
  }

  /** `completed / total * 100`, or 0 when there is nothing to complete. */
  function CompletionRate(completed: nat, total: nat): real {
    if total > 0 then completed as real / total as real * 100.0 else 0.0
  }

  /** The report line for doctor `d`: its counts partition its total, and its rate is a percentage. */
  function StatFor(appts: seq<Appointment>, d: nat): (s: DoctorStat)
    ensures s.doctor == d
    ensures s.completed + s.pending + s.confirmed + s.cancelled == s.total
    ensures s.completed <= s.total
    ensures 0.0 <= s.completionRate <= 100.0
  {
    StatusCountsPartition(appts, d);
    CompletionRateBounds(CountStatus(appts, d, Completed), Total(appts, d));
    var completed := CountStatus(appts, d, Completed);
    var total := Total(appts, d);
    DoctorStat(d, total, completed, CountStatus(appts, d, Pending), CountStatus(appts, d, Confirmed),
               CountStatus(appts, d, Cancelled), CompletionRate(completed, total))
  }

  /** Every appointment has exactly one of the four statuses, so a doctor's status counts add up to the doctor's total. */
  lemma {:induction false} StatusCountsPartition(appts: seq<Appointment>, d: nat)
    ensures CountStatus(appts, d, Completed) + CountStatus(appts, d, Pending) +
            CountStatus(appts, d, Confirmed) + CountStatus(appts, d, Cancelled) == Total(appts, d)
  {
    if appts != [] {
      StatusCountsPartition(appts[..|appts| - 1], d);
    }
  }

  /** A completion rate is a percentage, and it is 100 exactly when every appointment was completed. */
  lemma CompletionRateBounds(completed: nat, total: nat)
    requires completed <= total
    ensures 0.0 <= CompletionRate(completed, total) <= 100.0
    ensures CompletionRate(completed, total) == 100.0 <==> total > 0 && completed == total
  {
    if total > 0 {
      var q := completed as real / total as real;
      assert q * total as real == completed as real;
      assert q <= 1.0;
      assert q == 1.0 ==> completed == total;
    }
  }

  // ---------------------------------------------------------------------------
  // The loop over doctors

  function SumTotals(stats: seq<DoctorStat>): nat {
    if stats == [] then 0 else stats[0].total + SumTotals(stats[1..])
  }

  function SumCompleted(stats: seq<DoctorStat>): nat {
    if stats == [] then 0 else stats[0].completed + SumCompleted(stats[1..])
  }

  lemma {:induction false} SumsAppend(stats: seq<DoctorStat>, s: DoctorStat)
    ensures SumTotals(stats + [s]) == SumTotals(stats) + s.total
    ensures SumCompleted(stats + [s]) == SumCompleted(stats) + s.completed
  {
    if stats != [] {
      assert (stats + [s])[1..] == stats[1..] + [s];
      SumsAppend(stats[1..], s);
    }
  }

  /**
    The loop of the report: one line per doctor, in the doctors' order,
    while the grand totals accumulate the lines' totals and completed
    counts.
  */
  method BuildStats(doctors: seq<nat>, appts: seq<Appointment>)
    returns (stats: seq<DoctorStat>, totalAppointments: nat, totalCompleted: nat)
    ensures |stats| == |doctors|
    ensures forall i :: 0 <= i < |doctors| ==> stats[i] == StatFor(appts, doctors[i])
    ensures totalAppointments == SumTotals(stats)
    ensures totalCompleted == SumCompleted(stats)
    ensures totalCompleted <= totalAppointments
  {
    stats := [];
    totalAppointments := 0;
    totalCompleted := 0;
    var i := 0;
    while i < |doctors|
      invariant 0 <= i <= |doctors|
      invariant |stats| == i
      invariant forall j :: 0 <= j < i ==> stats[j] == StatFor(appts, doctors[j])
      invariant totalAppointments == SumTotals(stats)
      invariant totalCompleted == SumCompleted(stats)
      invariant totalCompleted <= totalAppointments
    {
      var line := StatFor(appts, doctors[i]);
      SumsAppend(stats, line);
      stats := stats + [line];
      totalAppointments := totalAppointments + line.total;
      totalCompleted := totalCompleted + line.completed;
      i := i + 1;
    }
  }

  // ---------------------------------------------------------------------------
  // The grand total counts every appointment once

  /** The number of times `d` occurs in `doctors`. */
  function Occurrences(doctors: seq<nat>, d: nat): nat {
    if doctors == [] then 0 else (if doctors[0] == d then 1 else 0) + Occurrences(doctors[1..], d)
  }

  /** The sum, over `doctors`, of each doctor's appointment count. */
  function TotalOver(doctors: seq<nat>, appts: seq<Appointment>): nat {
    if doctors == [] then 0 else Total(appts, doctors[0]) + TotalOver(doctors[1..], appts)
  }

  predicate Distinct(doctors: seq<nat>) {
    forall i, j :: 0 <= i < j < |doctors| ==> doctors[i] != doctors[j]
  }

  lemma {:induction false} OccursOnce(doctors: seq<nat>, d: nat)
    requires Distinct(doctors) && d in doctors
    ensures Occurrences(doctors, d) == 1
  {
    if doctors[0] == d {
      NotOccurring(doctors[1..], d);
    } else {
      OccursOnce(doctors[1..], d);
    }
  }

  lemma {:induction false} NotOccurring(doctors: seq<nat>, d: nat)
    requires d !in doctors
    ensures Occurrences(doctors, d) == 0
  {
    if doctors != [] {
      NotOccurring(doctors[1..], d);
    }
  }

  lemma {:induction false} TotalOverSnoc(doctors: seq<nat>, appts: seq<Appointment>, a: Appointment)
    ensures TotalOver(doctors, appts + [a]) == TotalOver(doctors, appts) + Occurrences(doctors, a.doctor)
  {
    if doctors != [] {
      assert (appts + [a])[..|appts + [a]| - 1] == appts;
      TotalOverSnoc(doctors[1..], appts, a);
    }
  }

  /**
    When the doctors are listed once each and every appointment is booked
    with one of them (the foreign key guarantees it), the per-doctor counts
    add up to the number of appointments in the range.
  */
  lemma {:induction false} TotalOverCountsAll(doctors: seq<nat>, appts: seq<Appointment>)
    requires Distinct(doctors)
    requires forall k :: 0 <= k < |appts| ==> appts[k].doctor in doctors
    ensures TotalOver(doctors, appts) == |appts|
  {
    if appts == [] {
      TotalOverEmpty(doctors);
    } else {
      var init := appts[..|appts| - 1];
      var a := appts[|appts| - 1];
      assert forall k :: 0 <= k < |init| ==> init[k] == appts[k];
      TotalOverCountsAll(doctors, init);
      TotalOverSnoc(doctors, init, a);
      OccursOnce(doctors, a.doctor);
      assert init + [a] == appts;
    }
  }

  lemma {:induction false} TotalOverEmpty(doctors: seq<nat>)
    ensures TotalOver(doctors, []) == 0
  {
    if doctors != [] {
      TotalOverEmpty(doctors[1..]);
    }
  }

  lemma {:induction false} SumTotalsIsTotalOver(doctors: seq<nat>, appts: seq<Appointment>, stats: seq<DoctorStat>)
    requires |stats| == |doctors|
    requires forall i :: 0 <= i < |doctors| ==> stats[i] == StatFor(appts, doctors[i])
    ensures SumTotals(stats) == TotalOver(doctors, appts)
  {
    if doctors != [] {
      SumTotalsIsTotalOver(doctors[1..], appts, stats[1..]);
    }
  }

  /** The report's grand total is the number of appointments in the range. */
  lemma GrandTotalCountsEveryAppointment(doctors: seq<nat>, appts: seq<Appointment>, stats: seq<DoctorStat>)
    requires Distinct(doctors)
    requires forall k :: 0 <= k < |appts| ==> appts[k].doctor in doctors
    requires |stats| == |doctors|
    requires forall i :: 0 <= i < |doctors| ==> stats[i] == StatFor(appts, doctors[i])
    ensures SumTotals(stats) == |appts|
  {
    SumTotalsIsTotalOver(doctors, appts, stats);
    TotalOverCountsAll(doctors, appts);
  }

  // ---------------------------------------------------------------------------
  // Sorting, highest key first

  predicate SortedBy(s: seq<DoctorStat>, k: SortKey) {
    forall i, j :: 0 <= i < j < |s| ==> Key(s[i], k) >= Key(s[j], k)
  }

  /** Places `x` in front of the first line whose key is not greater, so it keeps its place among equals. */
  function Insert(x: DoctorStat, t: seq<DoctorStat>, k: SortKey): (r: seq<DoctorStat>)
    requires SortedBy(t, k)
    ensures SortedBy(r, k)
    ensures multiset(r) == multiset(t) + multiset{x}
    ensures SumTotals(r) == SumTotals(t) + x.total
    ensures r[0] == x || (t != [] && r[0] == t[0])
  {
    if t == [] || Key(t[0], k) <= Key(x, k) then
      SortedCons(x, t, k);
      [x] + t
    else
      var rest := Insert(x, t[1..], k);
      assert t == [t[0]] + t[1..];
      assert ([t[0]] + rest)[1..] == rest;
      SortedCons(t[0], rest, k);
      [t[0]] + rest
  }

  lemma SortedCons(y: DoctorStat, s: seq<DoctorStat>, k: SortKey)
    requires SortedBy(s, k)
    requires s != [] ==> Key(s[0], k) <= Key(y, k)
    ensures SortedBy([y] + s, k)
  {
    var r := [y] + s;
    forall i, j | 0 <= i < j < |r|
      ensures Key(r[i], k) >= Key(r[j], k)
    {
      if i == 0 {
        assert r[j] == s[j - 1];
        assert Key(s[0], k) >= Key(s[j - 1], k);
      } else {
        assert r[i] == s[i - 1] && r[j] == s[j - 1];
      }
    }
  }

  /** `sorted(stats, key=..., reverse=True)`. */
  function Sort(s: seq<DoctorStat>, k: SortKey): (r: seq<DoctorStat>)
    ensures SortedBy(r, k)
    ensures multiset(r) == multiset(s)
    ensures |r| == |s|
    ensures SumTotals(r) == SumTotals(s)
  {
    if s == [] then []
    else
      assert s == [s[0]] + s[1..];
      Insert(s[0], Sort(s[1..], k), k)
  }

  // ---------------------------------------------------------------------------
  // Overall figures

  /** The lines of doctors with at least one appointment, in their order. */
  function Active(stats: seq<DoctorStat>): (r: seq<DoctorStat>)
    ensures |r| <= |stats|
    ensures forall x :: x in r <==> x in stats && x.total > 0
  {
    if stats == [] then []
    else if stats[0].total > 0 then [stats[0]] + Active(stats[1..])
    else Active(stats[1..])
  }

  /** `active_doctors`. */
  function ActiveDoctors(stats: seq<DoctorStat>): nat {
    |Active(stats)|
  }

  /** A doctor is active exactly when the doctor's line has a positive total, so no more lines are active than the grand total. */
  lemma {:induction false} ActiveAtMostGrandTotal(stats: seq<DoctorStat>)
    ensures ActiveDoctors(stats) <= SumTotals(stats)
  {
    if stats != [] {
      ActiveAtMostGrandTotal(stats[1..]);
    }
  }

  /** `avg_completion_rate`: the completed appointments over all of them, in percent. */
  function AverageCompletionRate(stats: seq<DoctorStat>): real {
    CompletionRate(SumCompleted(stats), SumTotals(stats))
  }

  /** Summed over consistent lines, the completed count never exceeds the total, and reaches it only when every line is fully completed. */
  lemma {:induction false} CompletedWithinTotals(stats: seq<DoctorStat>)
    requires forall s :: s in stats ==> s.completed <= s.total
    ensures SumCompleted(stats) <= SumTotals(stats)
    ensures SumCompleted(stats) == SumTotals(stats) <==> forall s :: s in stats ==> s.completed == s.total
  {
    if stats != [] {
      assert forall s :: s in stats[1..] ==> s in stats;
      CompletedWithinTotals(stats[1..]);
      assert forall s :: s in stats ==> s == stats[0] || s in stats[1..];
    }
  }

  /**
    Over the lines the report builds, the overall completion rate is a
    percentage; it is 100 exactly when there is at least one appointment
    and every doctor completed all of theirs, and 0 when nothing was
    completed.
  */
  lemma AverageCompletionRateBounds(doctors: seq<nat>, appts: seq<Appointment>, stats: seq<DoctorStat>)
    requires |stats| == |doctors|
    requires forall i :: 0 <= i < |doctors| ==> stats[i] == StatFor(appts, doctors[i])
    ensures 0.0 <= AverageCompletionRate(stats) <= 100.0
    ensures AverageCompletionRate(stats) == 100.0 <==>
              SumTotals(stats) > 0 && forall s :: s in stats ==> s.completed == s.total
    ensures SumCompleted(stats) == 0 ==> AverageCompletionRate(stats) == 0.0
  {
    forall s | s in stats
      ensures s.completed <= s.total
    {
      var i :| 0 <= i < |stats| && stats[i] == s;
    }
    CompletedWithinTotals(stats);
    CompletionRateBounds(SumCompleted(stats), SumTotals(stats));
  }

  function Min(a: nat, b: nat): nat {
    if a <= b then a else b
  }

  /** `top_doctors`: the active lines by completion rate, best first, at most three. */
  function TopDoctors(stats: seq<DoctorStat>): (r: seq<DoctorStat>)
    ensures |r| == Min(3, ActiveDoctors(stats))
    ensures forall x :: x in r ==> x in stats && x.total > 0
    ensures SortedBy(r, ByRate)
  {
    var a := Active(stats);
    var s := Sort(a, ByRate);
    PrefixOfPermutation(a, s, Min(3, |s|));
    s[..Min(3, |s|)]
  }

  lemma PrefixOfPermutation(a: seq<DoctorStat>, s: seq<DoctorStat>, n: nat)
    requires multiset(s) == multiset(a) && n <= |s|
    ensures forall x :: x in s[..n] ==> x in a
  {
    forall x | x in s[..n]
      ensures x in a
    {
      assert x in multiset(s);
    }
  }

  /** No active doctor left out of `top_doctors` has a better completion rate than one in it. */
  lemma TopDoctorsAreTop(stats: seq<DoctorStat>, x: DoctorStat, y: DoctorStat)
    requires x in stats && x.total > 0 && x !in TopDoctors(stats)
    requires y in TopDoctors(stats)
    ensures y.completionRate >= x.completionRate
  {
    var a := Active(stats);
    var s := Sort(a, ByRate);
    assert TopDoctors(stats) == s[..Min(3, |s|)];
    assert x in multiset(a);
    TopOfSorted(s, Min(3, |s|), x, y, ByRate);
  }

  lemma TopOfSorted(s: seq<DoctorStat>, n: nat, x: DoctorStat, y: DoctorStat, k: SortKey)
    requires SortedBy(s, k) && n <= |s|
    requires x in s && x !in s[..n] && y in s[..n]
    ensures Key(y, k) >= Key(x, k)
  {
    assert s == s[..n] + s[n..];
    assert x in s[n..];
    var j :| 0 <= j < |s| - n && s[n..][j] == x;
    var i :| 0 <= i < n && s[..n][i] == y;
    assert Key(s[i], k) >= Key(s[n + j], k);
  }
}

=== FILE: doctors.dfy ===
/**
  Doctors: the `DOC-NNN` employee identifier `Doctor.save` mints for a new
  doctor, and the display name `get_full_name` builds from the linked user.
*/
module Doctors {
  import opened Wrappers
  import opened Identifiers

  /** A row of the doctor table; the names are those of the linked user account. */
  datatype Doctor = Doctor(
    employeeId: string,
    firstName: string,
    lastName: string,
    specialization: string,
    consultationFee: int,
    isAvailable: bool)

  /** The `IntegrityError` of inserting a doctor whose employee identifier is taken. */
  datatype DoctorError = DuplicateEmployeeId

  const DoctorPrefix: string := "DOC"
  const DoctorDigits: nat := 3

  /** `get_full_name`: first name, one space, last name. */
  function FullName(d: Doctor): (name: string)
    ensures |name| == |d.firstName| + 1 + |d.lastName|
    ensures name[..|d.firstName|] == d.firstName
    ensures name[|d.firstName|] == ' '
    ensures name[|d.firstName| + 1..] == d.lastName
  {
    d.firstName + " " + d.lastName
  }

  /** Splits a display name at its first space: the inverse of `FullName` for first names without a space. */
  function SplitName(name: string): (r: (string, string))
    ensures ' ' !in r.0
    ensures (' ' in name) ==> name == r.0 + " " + r.1
    ensures (' ' !in name) ==> r == (name, "")
  {
    if name == [] then ("", "")
    else if name[0] == ' ' then ("", name[1..])
    else
      var rest := SplitName(name[1..]);
      assert ' ' in name[1..] ==> name == [name[0]] + rest.0 + " " + rest.1;
      assert ' ' !in name ==> name == [name[0]] + name[1..];
      ([name[0]] + rest.0, rest.1)
  }

  /** The full name determines the first and last name whenever the first name has no space. */
  lemma FullNameRoundTrip(d: Doctor)
    requires ' ' !in d.firstName
    ensures SplitName(FullName(d)) == (d.firstName, d.lastName)
  {
    SplitJoined(d.firstName, d.lastName);
  }

  lemma {:induction false} SplitJoined(first: string, last: string)
    requires ' ' !in first
    ensures SplitName(first + " " + last) == (first, last)
  {
    if first != [] {
      assert (first + " " + last)[1..] == first[1..] + " " + last;
      SplitJoined(first[1..], last);
      assert [first[0]] + first[1..] == first;
    }
  }

  // ---------------------------------------------------------------------------
  // Employee identifiers

  /** With no earlier identifier the first one is the literal `DOC-001`. */
  lemma FirstDoctorId(count: nat)
    ensures NextIdentifier(DoctorPrefix, DoctorDigits, None, count) == "DOC-001"
    ensures NextIdentifier(DoctorPrefix, DoctorDigits, Some(""), count) == "DOC-001"
  {
    assert ZeroPad(DecimalString(1), 3) == "001";
  }

  /** A well-formed predecessor `DOC-n` is followed by `DOC-(n+1)`, whatever the row count. */
  lemma DoctorIdSuccessor(n: nat, count: nat)
    ensures NextIdentifier(DoctorPrefix, DoctorDigits, Some(Format(DoctorPrefix, DoctorDigits, n)), count)
            == Format(DoctorPrefix, DoctorDigits, n + 1)
  {
    FormatRoundTrip(DoctorPrefix, DoctorDigits, n);
  }

  /** The padding widens rather than truncates: `DOC-999` is followed by `DOC-1000`. */
  lemma DoctorIdWidens(count: nat)
    ensures NextIdentifier(DoctorPrefix, DoctorDigits, Some("DOC-999"), count) == "DOC-1000"
  {
    Doc999();
    Doc1000();
    DoctorIdSuccessor(999, count);
  }

  lemma Doc999()
    ensures Format(DoctorPrefix, DoctorDigits, 999) == "DOC-999"
  {
    assert DecimalString(99) == "99";
    assert DecimalString(999) == "999";
  }

  lemma Doc1000()
    ensures Format(DoctorPrefix, DoctorDigits, 1000) == "DOC-1000"
  {
    assert DecimalString(10) == "10";
    assert DecimalString(100) == "100";
    assert DecimalString(1000) == "1000";
  }

  /** A predecessor whose second field is not a number (`DOC-X`) falls back to the row count: 4 rows give `DOC-005`. */
  lemma DoctorIdFallback()
    ensures NextIdentifier(DoctorPrefix, DoctorDigits, Some("DOC-X"), 4) == "DOC-005"
  {
    NotANumber();
    assert ZeroPad(DecimalString(5), 3) == "005";
  }

  lemma NotANumber()
    ensures SequenceNumber("DOC-X") == None
  {
    assert AfterFirstDash("DOC-X") == Some("X");
    assert UpToDash("X") == "X";
  }

  // ---------------------------------------------------------------------------
  // The doctor table

  class DoctorRegistry {
    var doctors: map<nat, Doctor>
    var nextId: nat

    /** Primary keys are below the counter and employee identifiers are unique, as the column's constraint demands. */
    ghost predicate Valid()
      reads this
    {
      (forall pk :: pk in doctors ==> pk < nextId) &&
      (forall p, q :: p in doctors && q in doctors && p != q ==> doctors[p].employeeId != doctors[q].employeeId)
    }

    constructor ()
      ensures Valid() && doctors == map[] && nextId == 0
    {
      doctors := map[];
      nextId := 0;
    }

    /** The identifier of the doctor with the highest primary key below `bound` whose identifier is not empty. */
    function LastIdBelow(bound: nat): (r: Option<string>)
      reads this
      ensures r.None? <==> forall pk :: pk in doctors && pk < bound ==> doctors[pk].employeeId == ""
      ensures r.Some? ==> exists pk :: LastWithIdBelow(pk, bound) && doctors[pk].employeeId == r.value
      decreases bound
    {
      if bound == 0 then None
      else if bound - 1 in doctors && doctors[bound - 1].employeeId != "" then
        assert LastWithIdBelow(bound - 1, bound);
        Some(doctors[bound - 1].employeeId)
      else
        var r := LastIdBelow(bound - 1);
        assert forall pk :: LastWithIdBelow(pk, bound - 1) ==> LastWithIdBelow(pk, bound);
        r
    }

    /** `pk` holds a doctor with an identifier, and every doctor between it and `bound` has none. */
    ghost predicate LastWithIdBelow(pk: nat, bound: nat)
      reads this
    {
      pk in doctors && pk < bound && doctors[pk].employeeId != "" &&
      forall q :: q in doctors && pk < q < bound ==> doctors[q].employeeId == ""
    }

    function LastIssued(): Option<string>
      reads this
    {
      LastIdBelow(nextId)
    }

    /**
      `Doctor.save` on a row about to be written: a row without an employee
      identifier gets the next one; every other field is kept.
    */
    method Save(d: Doctor) returns (s: Doctor)
      ensures s.employeeId == if d.employeeId != "" then d.employeeId else NextIdentifier(DoctorPrefix, DoctorDigits, LastIssued(), |doctors|)
      ensures s.employeeId != ""
      ensures s == d.(employeeId := s.employeeId)
    {
      s := d;
      if s.employeeId == "" {
        var last := LastIssued();
        if last.Some? && last.value != "" {
          match SequenceNumber(last.value)
          case Some(n) =>
            s := s.(employeeId := Format(DoctorPrefix, DoctorDigits, n + 1));
          case None =>
            s := s.(employeeId := Format(DoctorPrefix, DoctorDigits, |doctors| + 1));
        } else {
          FirstDoctorId(|doctors|);
          s := s.(employeeId := "DOC-001");
        }
      }
    }

    predicate IdTaken(id: string)
      reads this
    {
      exists pk :: pk in doctors && doctors[pk].employeeId == id
    }

    /**
      Saving a new doctor: the saved row is inserted under the next primary
      key, unless its employee identifier is already held by another doctor,
      which the unique constraint refuses.
    */
    method Insert(d: Doctor) returns (r: Result<nat, DoctorError>)
      requires Valid()
      modifies this
      ensures Valid()
      ensures r.Failure? <==>
        old(IdTaken(if d.employeeId != "" then d.employeeId
                    else NextIdentifier(DoctorPrefix, DoctorDigits, LastIssued(), |doctors|)))
      ensures r.Failure? ==> r.error == DuplicateEmployeeId && doctors == old(doctors) && nextId == old(nextId)
      ensures r.Success? ==> r.value == old(nextId) && nextId == old(nextId) + 1
      ensures r.Success? ==> doctors == old(doctors)[r.value := d.(employeeId :=
                if d.employeeId != "" then d.employeeId
                else NextIdentifier(DoctorPrefix, DoctorDigits, old(LastIssued()), old(|doctors|)))]
    {
      var saved := Save(d);
      if exists pk :: pk in doctors && doctors[pk].employeeId == saved.employeeId {
        return Failure(DuplicateEmployeeId);
      }
      doctors := doctors[nextId := saved];
      r := Success(nextId);
      nextId := nextId + 1;
    }
  }
}

=== FILE: employees.dfy ===
/**
  Employees and their monthly salaries: the total and payment status
  `Salary.save` derives, and the `salary_pay` and `employee_delete` request
  handlers. Amounts are integers in minor currency units.
*/
module Employees {
  import opened Wrappers
  import Dates
  import Billing
  import Attendance

  datatype EmployeeStatus = Active | Inactive | OnLeave | Suspended

  /** A row of the employee table. */
  datatype Employee = Employee(
    employeeId: string,
    dateOfBirth: Dates.Date,
    salary: int,
    status: EmployeeStatus)

  datatype PaymentStatus = Unpaid | Partial | Paid

  /** A row of the salary table; `employee` is the primary key of the employee paid. */
  datatype Salary = Salary(
    employee: nat,
    basicSalary: int,
    bonus: int,
    deductions: int,
    totalAmount: int,
    amountPaid: int,
    paymentStatus: PaymentStatus)

  datatype PayrollError = NotFound

  /** `Employee.age` on the given day. */
  function Age(e: Employee, today: Dates.Date): int {
    Dates.Age(e.dateOfBirth, today)
  }

  /** The total `Salary.save` stores: basic salary plus bonus less deductions. */
  function SalaryTotal(s: Salary): int {
    s.basicSalary + s.bonus - s.deductions
  }

  /** The payment status `Salary.save` stores; "paid in full" is tested first. */
  function SalaryStatusFor(total: int, paid: int): (st: PaymentStatus)
    ensures st == Paid <==> total <= paid
    ensures st == Partial <==> 0 < paid < total
    ensures st == Unpaid <==> paid <= 0 && paid < total
  {
    if paid >= total then Paid
    else if paid > 0 then Partial
    else Unpaid
  }

  /** A salary row whose total and status are the ones `save` derives. */
  predicate Settled(s: Salary) {
    s.totalAmount == SalaryTotal(s) && s.paymentStatus == SalaryStatusFor(s.totalAmount, s.amountPaid)
  }

  /**
    `Salary.save` on a row about to be written: the total is recomputed from
    its parts and the status from the total and the amount paid; nothing else
    changes, and saving a row that was already saved changes nothing.
  */
  method SaveSalary(s: Salary) returns (t: Salary)
    ensures t.totalAmount == s.basicSalary + s.bonus - s.deductions
    ensures t.paymentStatus == SalaryStatusFor(t.totalAmount, s.amountPaid)
    ensures Settled(t)
    ensures t == s.(totalAmount := t.totalAmount, paymentStatus := t.paymentStatus)
    ensures Settled(s) ==> t == s
  {
    t := s.(totalAmount := s.basicSalary + s.bonus - s.deductions);
    if t.amountPaid >= t.totalAmount {
      t := t.(paymentStatus := Paid);
    } else if t.amountPaid > 0 {
      t := t.(paymentStatus := Partial);
    } else {
      t := t.(paymentStatus := Unpaid);
    }
  }

  /** The bill status with the same name as a salary status. */
  function AsBillStatus(st: PaymentStatus): Billing.BillStatus {
    match st
    case Unpaid => Billing.Unpaid
    case Partial => Billing.Partial
    case Paid => Billing.Paid
  }

  /**
    Salaries and bills derive the same status from the same amounts except
    when nothing (or less than nothing) has been paid against a total no
    larger than the payment: a salary then counts as paid, a bill as unpaid.
  */
  lemma SalaryAndBillStatusDiffer(total: int, paid: int)
    ensures AsBillStatus(SalaryStatusFor(total, paid)) != Billing.StatusFor(total, paid) <==> paid <= 0 && total <= paid
    ensures paid <= 0 && total <= paid ==> SalaryStatusFor(total, paid) == Paid && Billing.StatusFor(total, paid) == Billing.Unpaid
  {
  }

  /** The status rank: unpaid, then partial, then paid. */
  function Rank(st: PaymentStatus): nat {
    match st
    case Unpaid => 0
    case Partial => 1
    case Paid => 2
  }

  /**
    For a fixed total, paying more never moves the status backwards, and a
    negative amount (which `salary_pay` accepts) can move it back.
  */
  lemma SalaryStatusMonotone(total: int, paid: int, more: int)
    ensures more >= 0 ==> Rank(SalaryStatusFor(total, paid)) <= Rank(SalaryStatusFor(total, paid + more))
    ensures SalaryStatusFor(100, 100) == Paid && SalaryStatusFor(100, 100 - 50) == Partial
  {
  }

  /**
    A payment leaves the parts of a salary alone, so the total that `save`
    recomputes after it is the stored total; the salary is then paid in full
    exactly when the payment covers what was outstanding.
  */
  lemma PaymentKeepsTotal(s: Salary, amount: int)
    requires Settled(s)
    ensures SalaryTotal(s.(amountPaid := s.amountPaid + amount)) == s.totalAmount
    ensures SalaryStatusFor(s.totalAmount, s.amountPaid + amount) == Paid <==> amount >= SalaryTotal(s) - s.amountPaid
  {
  }

  class Payroll {
    var employees: map<nat, Employee>
    var salaries: map<nat, Salary>

    ghost predicate Valid()
      reads this
    {
      forall k :: k in salaries ==> salaries[k].employee in employees && Settled(salaries[k])
    }

    constructor ()
      ensures Valid() && employees == map[] && salaries == map[]
    {
      employees := map[];
      salaries := map[];
    }

    /**
      `salary_pay`: on a POST the posted amount is added to the amount paid,
      with no check on its sign or against the total, and the row is saved
      again.
    */
    method PaySalary(pk: nat, amount: int, isPost: bool) returns (r: Outcome<PayrollError>)
      requires Valid()
      modifies this
      ensures Valid() && employees == old(employees)
      ensures r == Fail(NotFound) <==> pk !in old(salaries)
      ensures r.Fail? || !isPost ==> salaries == old(salaries)
      ensures r.Pass? && isPost ==>
        var s := old(salaries)[pk];
        salaries == old(salaries)[pk := s.(amountPaid := s.amountPaid + amount,
                                           paymentStatus := SalaryStatusFor(s.totalAmount, s.amountPaid + amount))]
    {
      if pk !in salaries {
        return Fail(NotFound);
      }
      if isPost {
        var s := salaries[pk];
        s := s.(amountPaid := s.amountPaid + amount);
        var saved := SaveSalary(s);
        salaries := salaries[pk := saved];
      }
      r := Pass;
    }

    /**
      `employee_delete`: only a POST looks the employee up and removes it,
      together with every row whose foreign key to it cascades: its
      salaries, attendance records, leaves and shift assignments. Any other
      request changes nothing, whether or not the employee exists.
    */
    method DeleteEmployee(pk: nat, isPost: bool, book: Attendance.AttendanceBook) returns (r: Outcome<PayrollError>)
      requires Valid()
      modifies this, book
      ensures Valid()
      ensures r == Fail(NotFound) <==> isPost && pk !in old(employees)
      ensures r.Fail? || !isPost ==>
        employees == old(employees) && salaries == old(salaries) &&
        book.records == old(book.records) && book.leaves == old(book.leaves) && book.shifts == old(book.shifts)
      ensures r.Pass? && isPost ==>
        employees == old(employees) - {pk} &&
        salaries == (map k | k in old(salaries) && old(salaries)[k].employee != pk :: old(salaries)[k]) &&
        book.records == (map k | k in old(book.records) && old(book.records)[k].employee != pk :: old(book.records)[k]) &&
        book.leaves == (map k | k in old(book.leaves) && old(book.leaves)[k].employee != pk :: old(book.leaves)[k]) &&
        book.shifts == (map k | k in old(book.shifts) && old(book.shifts)[k].employee != pk :: old(book.shifts)[k])
      ensures r.Pass? && isPost ==>
        (forall k :: k in salaries ==> salaries[k].employee != pk) &&
        (forall k :: k in book.records ==> book.records[k].employee != pk) &&
        (forall k :: k in book.leaves ==> book.leaves[k].employee != pk) &&
        (forall k :: k in book.shifts ==> book.shifts[k].employee != pk)
    {
      if !isPost {
        return Pass;
      }
      if pk !in employees {
        return Fail(NotFound);
      }
      employees := employees - {pk};
      salaries := map k | k in salaries && salaries[k].employee != pk :: salaries[k];
      book.RemoveEmployee(pk);
      r := Pass;
    }
  }
}

=== FILE: financial.dfy ===
/**
  Accounts, transactions and budgets: the balance posting `Transaction.save`
  performs on a new transaction, and the remaining amount and utilization a
  budget reports. Amounts are integers in minor currency units; the
  utilization percentage is an exact ratio.
*/
module Financial {
  import opened Wrappers

  datatype AccountStatus = Active | Inactive | Closed

  /** A row of the account table. */
  datatype Account = Account(accountNumber: string, accountName: string, balance: int, status: AccountStatus)

  datatype TransactionType = Income | Expense | Transfer

  /** A row of the transaction table; `account` is the primary key of the account it belongs to. */
  datatype Transaction = Transaction(transactionId: string, account: nat, kind: TransactionType, amount: int)

  /** A budget for one category and month. */
  datatype Budget = Budget(allocatedAmount: int, spentAmount: int)

  /** A new account as the table defaults create it: zero balance, active. */
  function NewAccount(number: string, name: string): (a: Account)
    ensures a.balance == 0 && a.status == Active
    ensures a.accountNumber == number && a.accountName == name
  {
    Account(number, name, 0, Active)
  }

  /** The amount field's declared validator: not negative. It is not run by `save`. */
  predicate AmountValid(t: Transaction) {
    t.amount >= 0
  }

  /** The change a new transaction makes to its account's balance. */
  function Delta(t: Transaction): (d: int)
    ensures t.kind == Income ==> d == t.amount
    ensures t.kind == Expense ==> d == -t.amount
    ensures t.kind == Transfer ==> d == 0
  {
    match t.kind
    case Income => t.amount
    case Expense => -t.amount
    case Transfer => 0
  }

  /** The balance change of a run of new transactions on one account. */
  function NetDelta(ts: seq<Transaction>): int {
    if ts == [] then 0 else NetDelta(ts[..|ts| - 1]) + Delta(ts[|ts| - 1])
  }

  /** With valid amounts, income never lowers a balance and expense never raises it; nothing keeps it non-negative. */
  lemma DeltaSign(t: Transaction, balance: int)
    requires AmountValid(t)
    ensures t.kind == Income ==> balance + Delta(t) >= balance
    ensures t.kind == Expense ==> balance + Delta(t) <= balance
    ensures t.kind == Expense && balance < t.amount ==> balance + Delta(t) < 0
  {
  }

  lemma {:induction false} NetDeltaAppend(ts: seq<Transaction>, us: seq<Transaction>)
    ensures NetDelta(ts + us) == NetDelta(ts) + NetDelta(us)
    decreases |us|
  {
    if us == [] {
      assert ts + us == ts;
    } else {
      var init := us[..|us| - 1];
      assert (ts + us)[..|ts + us| - 1] == ts + init;
      NetDeltaAppend(ts, init);
    }
  }

  /** The order in which transactions are posted does not change the final balance. */
  lemma {:induction false} NetDeltaOrderFree(ts: seq<Transaction>, us: seq<Transaction>)
    ensures NetDelta(ts + us) == NetDelta(us + ts)
  {
    NetDeltaAppend(ts, us);
    NetDeltaAppend(us, ts);
  }

  /**
    The rows a batch of new transactions takes, saved in order from the key
    `start`: `ts[i]` under `start + i`, and no other key.
  */
  function Rows(start: nat, ts: seq<Transaction>): map<nat, Transaction> {
    if ts == [] then map[] else Rows(start, ts[..|ts| - 1])[start + |ts| - 1 := ts[|ts| - 1]]
  }

  /** The batch takes exactly the keys `start` to `start + |ts| - 1`, with `ts[i]` under `start + i`. */
  lemma {:induction false} RowsContents(start: nat, ts: seq<Transaction>)
    ensures forall k :: k in Rows(start, ts) <==> start <= k < start + |ts|
    ensures forall i :: 0 <= i < |ts| ==> Rows(start, ts)[start + i] == ts[i]
    decreases |ts|
  {
    if ts != [] {
      var init := ts[..|ts| - 1];
      RowsContents(start, init);
      assert forall i :: 0 <= i < |init| ==> init[i] == ts[i];
    }
  }

  /** Saving `ts[i]` under the next key extends the batch's rows by one. */
  lemma RowsStep(t0: map<nat, Transaction>, before: map<nat, Transaction>, after: map<nat, Transaction>,
                 start: nat, ts: seq<Transaction>, i: nat)
    requires i < |ts| && before == t0 + Rows(start, ts[..i]) && after == before[start + i := ts[i]]
    ensures after == t0 + Rows(start, ts[..i + 1])
  {
    assert ts[..i + 1][..i] == ts[..i];
    assert Rows(start, ts[..i + 1]) == Rows(start, ts[..i])[start + i := ts[i]];
    assert (t0 + Rows(start, ts[..i]))[start + i := ts[i]] == t0 + Rows(start, ts[..i])[start + i := ts[i]];
  }

  /** `Budget.remaining_amount`: what is left of the allocation. */
  function Remaining(b: Budget): (r: int)
    ensures r + b.spentAmount == b.allocatedAmount
  {
    b.allocatedAmount - b.spentAmount
  }

  /** `Budget.utilization_percentage`: spent as a percentage of allocated; 0 with nothing allocated. */
  function Utilization(b: Budget): (u: real)
    ensures b.allocatedAmount > 0 ==> u * b.allocatedAmount as real == 100.0 * b.spentAmount as real
  {
    if b.allocatedAmount > 0 then (b.spentAmount as real / b.allocatedAmount as real) * 100.0 else 0.0
  }

  /**
    For a positive allocation the utilization is over, at, or under 100%
    exactly when the remaining amount is negative, zero, or positive.
  */
  lemma UtilizationMatchesRemaining(b: Budget)
    requires b.allocatedAmount > 0
    ensures Utilization(b) > 100.0 <==> Remaining(b) < 0
    ensures Utilization(b) == 100.0 <==> Remaining(b) == 0
    ensures Utilization(b) < 100.0 <==> Remaining(b) > 0
  {
    var a := b.allocatedAmount as real;
    var s := b.spentAmount as real;
    assert Utilization(b) * a == 100.0 * s;
    if s == a {
      assert s / a == 1.0;
    }
  }

  /** With nothing allocated the utilization is 0, however much was spent. */
  lemma UtilizationWithoutAllocation(b: Budget)
    requires b.allocatedAmount <= 0
    ensures Utilization(b) == 0.0
  {
  }

  class Books {
    var accounts: map<nat, Account>
    var transactions: map<nat, Transaction>
    var nextId: nat

    ghost predicate Valid()
      reads this
    {
      forall pk :: pk in transactions ==> pk < nextId && transactions[pk].account in accounts
    }

    constructor ()
      ensures Valid() && accounts == map[] && transactions == map[] && nextId == 0
    {
      accounts := map[];
      transactions := map[];
      nextId := 0;
    }

    /**
      `Transaction.save`: a new transaction (no primary key yet) posts its
      amount to its account, then is inserted; saving an existing one only
      overwrites the row and leaves every balance alone.
    */
    method SaveTransaction(pk: Option<nat>, t: Transaction) returns (saved: nat)
      requires Valid() && t.account in accounts
      requires pk.Some? ==> pk.value in transactions
      modifies this
      ensures Valid()
      ensures pk.None? ==>
        saved == old(nextId) && nextId == old(nextId) + 1 &&
        accounts == old(accounts)[t.account := old(accounts)[t.account].(balance := old(accounts)[t.account].balance + Delta(t))]
      ensures pk.Some? ==> saved == pk.value && nextId == old(nextId) && accounts == old(accounts)
      ensures transactions == old(transactions)[saved := t]
    {
      if pk.None? {
        var a := accounts[t.account];
        if t.kind == Income {
          a := a.(balance := a.balance + t.amount);
        } else if t.kind == Expense {
          a := a.(balance := a.balance - t.amount);
        }
        accounts := accounts[t.account := a];
        saved := nextId;
        nextId := nextId + 1;
      } else {
        saved := pk.value;
      }
      transactions := transactions[saved := t];
    }

    /**
      New transactions on one account saved one after another, as separate
      requests save them: the account's balance moves by their net change,
      which does not depend on their order, and no other account changes.
    */
    method SaveAll(account: nat, ts: seq<Transaction>)
      requires Valid() && account in accounts
      requires forall i :: 0 <= i < |ts| ==> ts[i].account == account
      modifies this
      ensures Valid() && accounts.Keys == old(accounts).Keys
      ensures accounts[account] == old(accounts)[account].(balance := old(accounts)[account].balance + NetDelta(ts))
      ensures forall k :: k in accounts && k != account ==> accounts[k] == old(accounts)[k]
      ensures nextId == old(nextId) + |ts|
      ensures transactions == old(transactions) + Rows(old(nextId), ts)
    {
      var i := 0;
      ghost var start := nextId;
      while i < |ts|
        invariant 0 <= i <= |ts|
        invariant Valid()
        invariant accounts == old(accounts)[account := old(accounts)[account].(balance := old(accounts)[account].balance + NetDelta(ts[..i]))]
        invariant nextId == start + i
        invariant transactions == old(transactions) + Rows(start, ts[..i])
      {
        assert ts[..i + 1][..i] == ts[..i];
        ghost var before := transactions;
        var saved := SaveTransaction(None, ts[i]);
        RowsStep(old(transactions), before, transactions, start, ts, i);
        i := i + 1;
      }
      assert ts[..|ts|] == ts;
    }
  }
}

=== FILE: identifiers.dfy ===
/**
  Sequential human-readable identifiers (`BILL-00042`, `DOC-007`).

  `Bill.save` and `Doctor.save` both mint the next identifier the same way:
  take the most recently inserted non-empty identifier, split it on `-`,
  read the second field as an integer, add one and zero-pad it behind the
  domain prefix; if there is no second field or it is not a number, use
  the number of existing rows plus one instead; with no predecessor at all,
  start at 1.
*/
module Identifiers {
  import opened Wrappers

  predicate IsDigit(c: char) {
    '0' <= c <= '9'
  }

  predicate AllDigits(s: string) {
    forall i :: 0 <= i < |s| ==> IsDigit(s[i])
  }

  /** The value of a string of decimal digits, most significant digit first. */
  function DigitsValue(s: string): nat
    requires AllDigits(s)
  {
    if s == [] then 0 else DigitsValue(s[..|s| - 1]) * 10 + (s[|s| - 1] as int - '0' as int)
  }

  /** Python's `int(field)` on the field of an identifier: a non-empty run of digits, or a ValueError (`None`). */
  function ParseInt(s: string): (r: Option<nat>)
    ensures r.Some? <==> s != [] && AllDigits(s)
  {
    if s != [] && AllDigits(s) then Some(DigitsValue(s)) else None
  }

  function DigitChar(d: nat): (c: char)
    requires d < 10
    ensures IsDigit(c) && c as int - '0' as int == d
  {
    ('0' as int + d) as char
  }

  /** `str(n)` for a non-negative integer: its shortest decimal representation. */
  function DecimalString(n: nat): (s: string)
    ensures s != [] && AllDigits(s)
    ensures n < 10 <==> |s| == 1
  {
    if n < 10 then [DigitChar(n)] else DecimalString(n / 10) + [DigitChar(n % 10)]
  }

  function Zeros(k: nat): (z: string)
    ensures |z| == k && AllDigits(z)
    ensures forall i :: 0 <= i < k ==> z[i] == '0'
  {
    seq(k, _ => '0')
  }

  /** The `{n:0Wd}` format of a digit string: zeros in front up to `width` characters, never truncated. */
  function ZeroPad(digits: string, width: nat): (r: string)
    ensures |r| == if |digits| >= width then |digits| else width
    ensures r[|r| - |digits|..] == digits
    ensures forall i :: 0 <= i < |r| - |digits| ==> r[i] == '0'
  {
    if |digits| >= width then digits else Zeros(width - |digits|) + digits
  }

  /** `f'{prefix}-{n:0{width}d}'` */
  function Format(prefix: string, width: nat, n: nat): string {
    prefix + "-" + ZeroPad(DecimalString(n), width)
  }

  /** The position of the first `-` of `s`; `None` when `s` has no `-`. */
  function DashIndex(s: string): (r: Option<nat>)
    ensures r.None? <==> forall j :: 0 <= j < |s| ==> s[j] != '-'
    ensures r.Some? ==> r.value < |s| && s[r.value] == '-' && forall j :: 0 <= j < r.value ==> s[j] != '-'
  {
    if s == [] then None
    else if s[0] == '-' then Some(0)
    else
      match DashIndex(s[1..])
      case None => None
      case Some(i) => Some(i + 1)
  }

  /** The text after the first `-` of `s`; `None` when `s` has no `-`. */
  function AfterFirstDash(s: string): (r: Option<string>)
    ensures r.None? <==> '-' !in s
    ensures r.Some? ==> |r.value| < |s| && s[|s| - |r.value| - 1] == '-' && s[|s| - |r.value|..] == r.value
    ensures r.Some? ==> '-' !in s[..|s| - |r.value| - 1]
  {
    match DashIndex(s)
    case None => None
    case Some(i) => Some(s[i + 1..])
  }

  /** The text of `s` before its first `-`, or all of `s`. */
  function UpToDash(s: string): (r: string)
    ensures '-' !in r
    ensures |r| <= |s| && s[..|r|] == r
    ensures |r| < |s| ==> s[|r|] == '-'
  {
    if s == [] then []
    else if s[0] == '-' then []
    else [s[0]] + UpToDash(s[1..])
  }

  /** `s.split('-')[1]`; `None` where Python raises IndexError (no `-` in `s`). */
  function SecondField(s: string): Option<string> {
    match AfterFirstDash(s)
    case None => None
    case Some(rest) => Some(UpToDash(rest))
  }

  /** `int(s.split('-')[1])`; `None` for either exception the minting code catches. */
  function SequenceNumber(id: string): Option<nat> {
    match SecondField(id)
    case None => None
    case Some(field) => ParseInt(field)
  }

  /**
    The identifier `save` mints for a new row: `last` is the identifier of the
    most recently inserted row that has one, `count` the number of rows.
  */
  function NextIdentifier(prefix: string, width: nat, last: Option<string>, count: nat): (r: string)
    ensures |r| >= |prefix| + 1 + width && r[..|prefix| + 1] == prefix + "-"
  {
    FormatShape(prefix, width, MintedNumber(last, count));
    if last.Some? && last.value != "" then
      match SequenceNumber(last.value)
      case Some(n) => Format(prefix, width, n + 1)
      case None => Format(prefix, width, count + 1)
    else
      Format(prefix, width, 1)
  }

  /** The number the minted identifier carries: the predecessor's number plus one, the row count plus one, or 1. */
  function MintedNumber(last: Option<string>, count: nat): nat {
    if last.Some? && last.value != "" then
      match SequenceNumber(last.value)
      case Some(n) => n + 1
      case None => count + 1
    else 1
  }

  // ---------------------------------------------------------------------------
  // Round trip: formatting a number and parsing it back gives the number.

  lemma {:induction false} DigitsValueAppend(s: string, c: char)
    requires AllDigits(s) && IsDigit(c)
    ensures AllDigits(s + [c])
    ensures DigitsValue(s + [c]) == DigitsValue(s) * 10 + (c as int - '0' as int)
  {
    assert (s + [c])[..|s + [c]| - 1] == s;
  }

  lemma {:induction false} DecimalStringValue(n: nat)
    ensures DigitsValue(DecimalString(n)) == n
  {
    if n >= 10 {
      DecimalStringValue(n / 10);
      DigitsValueAppend(DecimalString(n / 10), DigitChar(n % 10));
    }
  }

  lemma {:induction false} LeadingZerosValue(k: nat, s: string)
    requires AllDigits(s)
    ensures AllDigits(Zeros(k) + s)
    ensures DigitsValue(Zeros(k) + s) == DigitsValue(s)
  {
    if s == [] {
      assert Zeros(k) + s == Zeros(k);
      ZerosValue(k);
    } else {
      var init := s[..|s| - 1];
      LeadingZerosValue(k, init);
      assert Zeros(k) + s == (Zeros(k) + init) + [s[|s| - 1]];
      DigitsValueAppend(Zeros(k) + init, s[|s| - 1]);
      DigitsValueAppend(init, s[|s| - 1]);
      assert init + [s[|s| - 1]] == s;
    }
  }

  lemma {:induction false} ZerosValue(k: nat)
    ensures DigitsValue(Zeros(k)) == 0
  {
    if k > 0 {
      ZerosValue(k - 1);
      assert Zeros(k) == Zeros(k - 1) + ['0'];
      DigitsValueAppend(Zeros(k - 1), '0');
    }
  }

  lemma PaddedValue(n: nat, width: nat)
    ensures AllDigits(ZeroPad(DecimalString(n), width))
    ensures '-' !in ZeroPad(DecimalString(n), width)
    ensures DigitsValue(ZeroPad(DecimalString(n), width)) == n
  {
    var d := DecimalString(n);
    DecimalStringValue(n);
    if |d| < width {
      LeadingZerosValue(width - |d|, d);
    }
  }

  lemma {:induction false} UpToDashNoDash(s: string)
    requires '-' !in s
    ensures UpToDash(s) == s
  {
    if s != [] {
      UpToDashNoDash(s[1..]);
    }
  }

  lemma AfterPrefixDash(prefix: string, t: string)
    requires '-' !in prefix
    ensures AfterFirstDash(prefix + "-" + t) == Some(t)
  {
    var s := prefix + "-" + t;
    assert s[|prefix|] == '-';
    assert forall j :: 0 <= j < |prefix| ==> s[j] == prefix[j];
    assert DashIndex(s) == Some(|prefix|);
    assert s[|prefix| + 1..] == t;
  }

  /** Parsing the second field of a formatted identifier gives back its number, whatever the width. */
  lemma FormatRoundTrip(prefix: string, width: nat, n: nat)
    requires '-' !in prefix
    ensures SecondField(Format(prefix, width, n)) == Some(ZeroPad(DecimalString(n), width))
    ensures SequenceNumber(Format(prefix, width, n)) == Some(n)
  {
    var p := ZeroPad(DecimalString(n), width);
    AfterPrefixDash(prefix, p);
    PaddedValue(n, width);
    UpToDashNoDash(p);
  }

  /** A formatted identifier starts with `prefix-` and is at least `width` digits long after it. */
  lemma FormatShape(prefix: string, width: nat, n: nat)
    ensures |Format(prefix, width, n)| >= |prefix| + 1 + width
    ensures Format(prefix, width, n)[..|prefix| + 1] == prefix + "-"
  {
  }

  /**
    The minted identifier always parses back to the number it was minted
    from: the predecessor's number plus one, the row count plus one on the
    fallback path, or 1 for the first row.
  */
  lemma NextIdentifierNumber(prefix: string, width: nat, last: Option<string>, count: nat)
    requires '-' !in prefix
    ensures SequenceNumber(NextIdentifier(prefix, width, last, count)) == Some(MintedNumber(last, count))
    ensures last.Some? && last.value != "" && SequenceNumber(last.value).Some? ==>
              MintedNumber(last, count) == SequenceNumber(last.value).value + 1
    ensures (last.None? || last.value == "") ==> MintedNumber(last, count) == 1
    ensures last.Some? && last.value != "" && SequenceNumber(last.value).None? ==>
              MintedNumber(last, count) == count + 1
  {
    FormatRoundTrip(prefix, width, MintedNumber(last, count));
  }

  /**
    Monotonicity: after a well-formed predecessor the new identifier's number is
    strictly greater than the predecessor's, so minting twice in a row never
    repeats an identifier.
  */
  lemma MintingIsMonotonic(prefix: string, width: nat, last: string, count: nat)
    requires '-' !in prefix
    requires SequenceNumber(last).Some?
    ensures SequenceNumber(NextIdentifier(prefix, width, Some(last), count)).Some?
    ensures SequenceNumber(NextIdentifier(prefix, width, Some(last), count)).value > SequenceNumber(last).value
    ensures NextIdentifier(prefix, width, Some(last), count) != last
  {
    assert last != "";
    NextIdentifierNumber(prefix, width, Some(last), count);
  }

  /** Two identifiers of one domain minted one after the other are distinct and increasing. */
  lemma ChainIsIncreasing(prefix: string, width: nat, last: Option<string>, count1: nat, count2: nat)
    requires '-' !in prefix
    ensures var first := NextIdentifier(prefix, width, last, count1);
            var second := NextIdentifier(prefix, width, Some(first), count2);
            SequenceNumber(second).Some? && SequenceNumber(first).Some? &&
            SequenceNumber(second).value == SequenceNumber(first).value + 1
  {
    var first := NextIdentifier(prefix, width, last, count1);
    NextIdentifierNumber(prefix, width, last, count1);
    FormatShape(prefix, width, MintedNumber(last, count1));
    NextIdentifierNumber(prefix, width, Some(first), count2);
  }
}

=== FILE: patients.dfy ===
/**
  Patient quick creation (`patient_quick_create`): required fields, a
  unique email, a unique username derived from the email, then a user
  account and a patient row, all in one transaction.
*/
module Patients {
  import opened Wrappers
  import opened Identifiers
  import opened Dates

  /** A user account: the fields quick creation fills in. */
  datatype User = User(username: string, email: string, firstName: string, lastName: string)

  /**
    A row of the patient table. `user` is the index of its user account;
    `patientId` is declared unique and quick creation leaves it blank.
  */
  datatype Patient = Patient(user: nat, patientId: string, dateOfBirth: Date, gender: string, phoneNumber: string, address: string)

  /** The posted form after `.strip()`; a missing date of birth is `None`, a missing text field empty. */
  datatype QuickForm = QuickForm(
    firstName: string,
    lastName: string,
    email: string,
    phoneNumber: string,
    dateOfBirth: Option<Date>,
    gender: string,
    address: string)

  datatype PatientError =
    | MissingRequiredField
    | EmailTaken
    | EmptyUsername
    | DuplicatePatientId

  predicate RequiredFilled(f: QuickForm) {
    f.firstName != "" && f.lastName != "" && f.email != "" && f.dateOfBirth.Some? && f.gender != ""
  }

  /** `s.split(c)[0]`: the text of `s` before its first `c`, or all of `s`. */
  function BeforeFirst(s: string, c: char): (r: string)
    ensures c !in r
    ensures |r| <= |s| && s[..|r|] == r
    ensures |r| < |s| ==> s[|r|] == c
  {
    if s == [] || s[0] == c then [] else [s[0]] + BeforeFirst(s[1..], c)
  }

  /** The username every quick-created patient starts from: the email's local part. */
  function BaseUsername(email: string): string {
    BeforeFirst(email, '@')
  }

  /** The index of the last `c` in `s`, or `None` when `s` has none. */
  function LastIndex(s: string, c: char): (r: Option<nat>)
    ensures r.None? <==> c !in s
    ensures r.Some? ==> r.value < |s| && s[r.value] == c && c !in s[r.value + 1..]
  {
    if s == [] then None
    else if s[|s| - 1] == c then Some(|s| - 1)
    else LastIndex(s[..|s| - 1], c)
  }

  /** `str.lower` on one character, for the letters A to Z. */
  function LowerChar(ch: char): char {
    if 'A' <= ch <= 'Z' then (ch as int - 'A' as int + 'a' as int) as char else ch
  }

  /** `str.lower`: every letter of `s` in lower case. */
  function Lower(s: string): (r: string)
    ensures |r| == |s|
    ensures forall i :: 0 <= i < |s| ==> r[i] == LowerChar(s[i])
  {
    if s == [] then [] else [LowerChar(s[0])] + Lower(s[1..])
  }

  /**
    `BaseUserManager.normalize_email`, which `create_user` applies before it
    stores the address: the domain, everything after the last `@`, is put in
    lower case; an address without `@` is kept as it is. The address reaching
    it is already stripped, so its own `strip` changes nothing.
  */
  function NormalizeEmail(email: string): (r: string)
    ensures |r| == |email|
    ensures forall i :: 0 <= i < |email| ==> LowerChar(r[i]) == LowerChar(email[i])
    ensures '@' !in email ==> r == email
    ensures '@' in email ==>
      var at := LastIndex(email, '@').value;
      r[..at + 1] == email[..at + 1] && forall i :: at < i < |email| ==> r[i] == LowerChar(email[i])
  {
    match LastIndex(email, '@')
    case None => email
    case Some(at) => email[..at + 1] + Lower(email[at + 1..])
  }

  lemma {:induction false} LastIndexSamePositions(a: string, b: string, c: char)
    requires |a| == |b| && forall i :: 0 <= i < |a| ==> (a[i] == c <==> b[i] == c)
    ensures LastIndex(a, c) == LastIndex(b, c)
    decreases |a|
  {
    if a != [] && a[|a| - 1] != c {
      LastIndexSamePositions(a[..|a| - 1], b[..|b| - 1], c);
    }
  }

  /** Normalizing a stored address again leaves it as it is. */
  lemma NormalizeEmailIdempotent(email: string)
    ensures NormalizeEmail(NormalizeEmail(email)) == NormalizeEmail(email)
  {
    var r := NormalizeEmail(email);
    if '@' in email {
      forall i | 0 <= i < |email|
        ensures r[i] == '@' <==> email[i] == '@'
      {
        assert LowerChar(r[i]) == LowerChar(email[i]);
      }
      LastIndexSamePositions(r, email, '@');
    }
  }

  lemma {:induction false} BeforeFirstSharedPrefix(a: string, b: string, c: char, n: nat)
    requires n <= |a| && n <= |b| && a[..n] == b[..n] && c in a[..n]
    ensures BeforeFirst(a, c) == BeforeFirst(b, c)
    decreases n
  {
    assert a[0] == a[..n][0] == b[..n][0] == b[0];
    if a[0] != c {
      assert a[1..][..n - 1] == a[..n][1..] == b[..n][1..] == b[1..][..n - 1];
      BeforeFirstSharedPrefix(a[1..], b[1..], c, n - 1);
    }
  }

  /**
    The stored, normalized address has the same local part as the address
    typed in, so the username taken from the form still matches it.
  */
  lemma NormalizeEmailKeepsBaseUsername(email: string)
    ensures BaseUsername(NormalizeEmail(email)) == BaseUsername(email)
  {
    if '@' in email {
      var at := LastIndex(email, '@').value;
      assert email[..at + 1][at] == '@';
      BeforeFirstSharedPrefix(email, NormalizeEmail(email), '@', at + 1);
    }
  }

  /**
    `name` is what the username loop settles on for `base` among the names
    `taken`: the base itself when it is free, otherwise the base followed by
    the smallest counter from 1 up that is free.
  */
  ghost predicate FirstFreeName(taken: set<string>, base: string, name: string) {
    name !in taken &&
    (name == base ||
     (base in taken &&
      exists k: nat :: 1 <= k && name == base + DecimalString(k) &&
        forall j: nat :: 1 <= j < k ==> base + DecimalString(j) in taken))
  }

  lemma DecimalStringInjective(a: nat, b: nat)
    requires DecimalString(a) == DecimalString(b)
    ensures a == b
  {
    DecimalStringValue(a);
    DecimalStringValue(b);
  }

  lemma SuffixInjective(base: string, a: nat, b: nat)
    requires base + DecimalString(a) == base + DecimalString(b)
    ensures a == b
  {
    assert DecimalString(a) == (base + DecimalString(a))[|base|..];
    assert DecimalString(b) == (base + DecimalString(b))[|base|..];
    DecimalStringInjective(a, b);
  }

  /** At most one name is the first free one: the loop's result is determined by the names already taken. */
  lemma FirstFreeNameUnique(taken: set<string>, base: string, n1: string, n2: string)
    requires FirstFreeName(taken, base, n1) && FirstFreeName(taken, base, n2)
    ensures n1 == n2
  {
    if base in taken && n1 != base && n2 != base {
      var k1: nat :| 1 <= k1 && n1 == base + DecimalString(k1) &&
        forall j: nat :: 1 <= j < k1 ==> base + DecimalString(j) in taken;
      var k2: nat :| 1 <= k2 && n2 == base + DecimalString(k2) &&
        forall j: nat :: 1 <= j < k2 ==> base + DecimalString(j) in taken;
      if k1 < k2 {
        assert false;
      } else if k2 < k1 {
        assert false;
      }
    }
  }

  /** The taken names of the form base + counter with a counter of at least `c`. */
  ghost function TakenFrom(taken: set<string>, base: string, c: nat): set<string> {
    set u | u in taken && exists j: nat :: j >= c && u == base + DecimalString(j)
  }

  lemma TakenFromStep(taken: set<string>, base: string, c: nat)
    ensures |TakenFrom(taken, base, c)| == |TakenFrom(taken, base, c + 1)| + (if base + DecimalString(c) in taken then 1 else 0)
  {
    var name := base + DecimalString(c);
    if name in TakenFrom(taken, base, c + 1) {
      var j: nat :| j >= c + 1 && name == base + DecimalString(j);
      SuffixInjective(base, j, c);
    }
    forall u | u in TakenFrom(taken, base, c)
      ensures u in TakenFrom(taken, base, c + 1) || u == name
    {
      var j: nat :| j >= c && u == base + DecimalString(j);
      if j > c {
        assert u in TakenFrom(taken, base, c + 1);
      }
    }
    if name in taken {
      assert TakenFrom(taken, base, c) == TakenFrom(taken, base, c + 1) + {name};
    } else {
      assert TakenFrom(taken, base, c) == TakenFrom(taken, base, c + 1);
    }
  }

  class Directory {
    var users: seq<User>
    var patients: seq<Patient>

    /**
      Usernames are unique and never empty (`create_user` refuses an empty
      one), and every patient refers to an existing user.
    */
    ghost predicate Valid()
      reads this
    {
      (forall i, j :: 0 <= i < j < |users| ==> users[i].username != users[j].username) &&
      (forall i :: 0 <= i < |users| ==> users[i].username != "") &&
      (forall k :: 0 <= k < |patients| ==> patients[k].user < |users|)
    }

    constructor ()
      ensures Valid() && users == [] && patients == []
    {
      users := [];
      patients := [];
    }

    function Usernames(): set<string>
      reads this
    {
      set u | u in users :: u.username
    }

    predicate EmailInUse(email: string)
      reads this
    {
      exists u :: u in users && u.email == email
    }

    predicate BlankPatientIdInUse()
      reads this
    {
      exists p :: p in patients && p.patientId == ""
    }

    /**
      The username loop: start from `base`, and while the name is taken try
      `base1`, `base2`, ... in turn.
    */
    method UniqueUsername(base: string) returns (username: string)
      ensures username !in Usernames()
      ensures FirstFreeName(Usernames(), base, username)
      ensures base !in Usernames() ==> username == base
    {
      var taken := Usernames();
      username := base;
      var counter: nat := 1;
      while username in taken
        invariant counter >= 1
        invariant counter == 1 ==> username == base
        invariant counter > 1 ==> base in taken && username == base + DecimalString(counter - 1)
        invariant forall j: nat :: 1 <= j < counter - 1 ==> base + DecimalString(j) in taken
        decreases |TakenFrom(taken, base, counter)| + (if username in taken then 1 else 0)
      {
        TakenFromStep(taken, base, counter);
        username := base + DecimalString(counter);
        counter := counter + 1;
      }
      if counter > 1 {
        assert username == base + DecimalString(counter - 1);
      }
    }

    /**
      `patient_quick_create`: check the required fields and the email, pick a
      free username, then create the user and the patient in one transaction.
      An email whose local part is empty gives the empty username, which
      `create_user` refuses. The patient id is left blank and must be unique,
      so creation fails, and the user is rolled back, once any patient
      already has a blank id.
    */
    method QuickCreate(f: QuickForm) returns (r: Result<nat, PatientError>)
      requires Valid()
      modifies this
      ensures Valid()
      ensures r == Failure(MissingRequiredField) <==> !RequiredFilled(f)
      ensures r == Failure(EmailTaken) <==> RequiredFilled(f) && old(EmailInUse(f.email))
      ensures r == Failure(EmptyUsername) <==>
        RequiredFilled(f) && !old(EmailInUse(f.email)) && BaseUsername(f.email) == ""
      ensures r == Failure(DuplicatePatientId) <==>
        RequiredFilled(f) && !old(EmailInUse(f.email)) && BaseUsername(f.email) != "" && old(BlankPatientIdInUse())
      ensures r.Success? <==>
        RequiredFilled(f) && !old(EmailInUse(f.email)) && BaseUsername(f.email) != "" && !old(BlankPatientIdInUse())
      ensures r.Failure? ==> users == old(users) && patients == old(patients)
      ensures r.Success? ==>
        |users| == |old(users)| + 1 && users[..|old(users)|] == old(users) &&
        FirstFreeName(old(Usernames()), BaseUsername(f.email), users[|old(users)|].username) &&
        users[|old(users)|] == User(users[|old(users)|].username, NormalizeEmail(f.email), f.firstName, f.lastName) &&
        r.value == |old(patients)| &&
        patients == old(patients) + [Patient(|old(users)|, "", f.dateOfBirth.value, f.gender, f.phoneNumber, f.address)]
    {
      if !RequiredFilled(f) {
        return Failure(MissingRequiredField);
      }
      if EmailInUse(f.email) {
        return Failure(EmailTaken);
      }
      var base := BeforeFirst(f.email, '@');
      var username := UniqueUsername(base);
      if username == "" {
        return Failure(EmptyUsername);
      }
      if BlankPatientIdInUse() {
        return Failure(DuplicatePatientId);
      }
      UsernameIsNew(username);
      users := users + [User(username, NormalizeEmail(f.email), f.firstName, f.lastName)];
      r := Success(|patients|);
      patients := patients + [Patient(|users| - 1, "", f.dateOfBirth.value, f.gender, f.phoneNumber, f.address)];
    }

    lemma UsernameIsNew(name: string)
      requires name !in Usernames()
      ensures forall i :: 0 <= i < |users| ==> users[i].username != name
    {
      forall i | 0 <= i < |users|
        ensures users[i].username != name
      {
        assert users[i] in users;
      }
    }
  }
}

=== FILE: pharmacy.dfy ===
/**
  The pharmacy's medicine catalogue: the low-stock and profit-margin
  properties of a medicine, the `medicine_create` validation chain and the
  `update_stock` handler. Prices are integers in minor currency units; the
  profit margin is an exact ratio.
*/
module Pharmacy {
  import opened Wrappers

  /** A row of the medicine table. */
  datatype Medicine = Medicine(
    medicineId: string,
    name: string,
    category: string,
    manufacturer: string,
    description: string,
    stockQuantity: int,
    unit: string,
    expiryDate: string,
    purchasePrice: int,
    sellingPrice: int,
    reorderLevel: int)

  const DefaultStock: int := 0
  const DefaultReorderLevel: int := 10

  /** `Medicine.is_low_stock`: stock at or below the reorder level. */
  predicate IsLowStock(m: Medicine) {
    m.stockQuantity <= m.reorderLevel
  }

  /** `Medicine.profit_margin`: the markup over the purchase price in percent; 0 for a purchase price that is not positive. */
  function ProfitMargin(m: Medicine): (r: real)
    ensures m.purchasePrice > 0 ==> r * m.purchasePrice as real == 100.0 * (m.sellingPrice - m.purchasePrice) as real
    ensures m.purchasePrice <= 0 ==> r == 0.0
  {
    if m.purchasePrice > 0 then
      ((m.sellingPrice - m.purchasePrice) as real / m.purchasePrice as real) * 100.0
    else 0.0
  }

  /** For a positive purchase price the margin has the sign of selling less purchase price, and no purchase price gives 0. */
  lemma ProfitMarginSign(m: Medicine)
    ensures m.purchasePrice > 0 ==> (ProfitMargin(m) > 0.0 <==> m.sellingPrice > m.purchasePrice)
    ensures m.purchasePrice > 0 ==> (ProfitMargin(m) == 0.0 <==> m.sellingPrice == m.purchasePrice)
    ensures m.purchasePrice > 0 ==> (ProfitMargin(m) < 0.0 <==> m.sellingPrice < m.purchasePrice)
    ensures m.purchasePrice <= 0 ==> ProfitMargin(m) == 0.0
  {
  }

  /** Selling at twice the purchase price is a 100% margin. */
  lemma DoublePriceMargin(m: Medicine)
    requires m.purchasePrice > 0 && m.sellingPrice == 2 * m.purchasePrice
    ensures ProfitMargin(m) == 100.0
  {
    var p := m.purchasePrice as real;
    assert (m.sellingPrice - m.purchasePrice) as real == p;
    assert p / p == 1.0;
  }

  // ---------------------------------------------------------------------------
  // Creating a medicine

  /**
    The posted form after `.strip()`: text fields are empty when missing;
    the numeric fields are `None` when missing, already parsed otherwise.
  */
  datatype MedicineForm = MedicineForm(
    medicineId: string,
    name: string,
    category: string,
    manufacturer: string,
    description: string,
    stockQuantity: Option<int>,
    unit: string,
    expiryDate: string,
    purchasePrice: Option<int>,
    sellingPrice: Option<int>,
    reorderLevel: Option<int>)

  datatype CatalogueError =
    | NotFound
    | MissingRequiredField
    | DuplicateMedicineId
    | NegativePrice
    | NonPositiveQuantity
    | InsufficientStock

  /** Every required field of the create form is filled in. */
  predicate RequiredFilled(f: MedicineForm) {
    f.medicineId != "" && f.name != "" && f.category != "" && f.manufacturer != "" && f.unit != "" && f.expiryDate != ""
  }

  /** The row `medicine_create` builds from a form, missing numbers taking their defaults. */
  function FromForm(f: MedicineForm): (m: Medicine)
    ensures f.stockQuantity.None? ==> m.stockQuantity == DefaultStock
    ensures f.reorderLevel.None? ==> m.reorderLevel == DefaultReorderLevel
    ensures f.purchasePrice.None? ==> m.purchasePrice == 0
    ensures f.sellingPrice.None? ==> m.sellingPrice == 0
    ensures m.medicineId == f.medicineId && m.name == f.name && m.expiryDate == f.expiryDate
  {
    Medicine(f.medicineId, f.name, f.category, f.manufacturer, f.description,
      f.stockQuantity.GetOr(DefaultStock), f.unit, f.expiryDate,
      f.purchasePrice.GetOr(0), f.sellingPrice.GetOr(0), f.reorderLevel.GetOr(DefaultReorderLevel))
  }

  /** A medicine created without stock or reorder level starts out low on stock. */
  lemma DefaultsAreLowStock(f: MedicineForm)
    requires f.stockQuantity.None? && f.reorderLevel.None?
    ensures IsLowStock(FromForm(f))
  {
  }

  /** What `update_stock` asks for. */
  datatype StockAction = Add | Remove | Other

  /**
    The stock `update_stock` leaves: a quantity that is not positive or a
    removal of more than is in stock is refused; any other action keeps the
    stock as it is.
  */
  function StockChange(stock: int, action: StockAction, quantity: int): (r: Result<int, CatalogueError>)
    ensures r == Failure(NonPositiveQuantity) <==> quantity <= 0
    ensures r == Failure(InsufficientStock) <==> 0 < quantity && action == Remove && stock < quantity
    ensures r.Success? && action == Add ==> r.value == stock + quantity
    ensures r.Success? && action == Remove ==> r.value == stock - quantity && r.value >= 0
    ensures r.Success? && action == Other ==> r.value == stock
    ensures r.Success? && stock >= 0 ==> r.value >= 0
  {
    if quantity <= 0 then Failure(NonPositiveQuantity)
    else match action
      case Add => Success(stock + quantity)
      case Remove => if stock < quantity then Failure(InsufficientStock) else Success(stock - quantity)
      case Other => Success(stock)
  }

  /**
    Removing what was just added restores a stock that was not negative, and
    adding back what was removed restores any stock. A negative stock can
    take an addition that the removal of the same quantity then refuses.
  */
  lemma AddThenRemove(stock: int, quantity: int)
    requires quantity > 0 && stock >= 0
    ensures StockChange(stock, Add, quantity).Success?
    ensures StockChange(StockChange(stock, Add, quantity).value, Remove, quantity) == Success(stock)
    ensures StockChange(stock, Remove, quantity).Success? ==>
              StockChange(StockChange(stock, Remove, quantity).value, Add, quantity) == Success(stock)
  {
    assert StockChange(stock, Add, quantity) == Success(stock + quantity);
    assert StockChange(stock + quantity, Remove, quantity) == Success(stock);
  }

  /**
    An accepted removal never lifts a medicine out of low stock and an
    accepted addition never puts one into it; an addition clears the flag
    exactly when it takes the stock past the reorder level.
  */
  lemma LowStockAfterChange(m: Medicine, action: StockAction, quantity: int)
    requires StockChange(m.stockQuantity, action, quantity).Success?
    ensures var after := m.(stockQuantity := StockChange(m.stockQuantity, action, quantity).value);
            (action == Remove && IsLowStock(m) ==> IsLowStock(after)) &&
            (action == Add && !IsLowStock(m) ==> !IsLowStock(after)) &&
            (action == Add ==> (IsLowStock(after) <==> quantity <= m.reorderLevel - m.stockQuantity)) &&
            (action == Other ==> (IsLowStock(after) <==> IsLowStock(m)))
  {
  }

  class Catalogue {
    var medicines: map<nat, Medicine>
    var nextId: nat

    /** Primary keys are below the counter and medicine ids are unique, as the table's constraint demands. */
    ghost predicate Valid()
      reads this
    {
      (forall pk :: pk in medicines ==> pk < nextId) &&
      (forall p, q :: p in medicines && q in medicines && p != q ==> medicines[p].medicineId != medicines[q].medicineId)
    }

    constructor ()
      ensures Valid() && medicines == map[] && nextId == 0
    {
      medicines := map[];
      nextId := 0;
    }

    predicate HasMedicineId(id: string)
      reads this
    {
      exists pk :: pk in medicines && medicines[pk].medicineId == id
    }

    /**
      `medicine_create` on a POST: required fields, then an unused medicine
      id, then non-negative prices; a selling price below the purchase price
      only raises a warning (`r.value.1`) and the medicine is still created.
    */
    method Create(f: MedicineForm) returns (r: Result<(nat, bool), CatalogueError>)
      requires Valid()
      modifies this
      ensures Valid()
      ensures r == Failure(MissingRequiredField) <==> !RequiredFilled(f)
      ensures r == Failure(DuplicateMedicineId) <==> RequiredFilled(f) && old(HasMedicineId(f.medicineId))
      ensures r == Failure(NegativePrice) <==>
        RequiredFilled(f) && !old(HasMedicineId(f.medicineId)) && (FromForm(f).purchasePrice < 0 || FromForm(f).sellingPrice < 0)
      ensures r.Success? <==>
        RequiredFilled(f) && !old(HasMedicineId(f.medicineId)) && FromForm(f).purchasePrice >= 0 && FromForm(f).sellingPrice >= 0
      ensures r.Failure? ==> medicines == old(medicines) && nextId == old(nextId)
      ensures r.Success? ==>
        r.value.0 == old(nextId) && nextId == old(nextId) + 1 &&
        medicines == old(medicines)[r.value.0 := FromForm(f)] &&
        (r.value.1 <==> FromForm(f).sellingPrice < FromForm(f).purchasePrice)
    {
      var stock := f.stockQuantity.GetOr(0);
      var purchase := f.purchasePrice.GetOr(0);
      var selling := f.sellingPrice.GetOr(0);
      var reorder := f.reorderLevel.GetOr(10);
      if !RequiredFilled(f) {
        return Failure(MissingRequiredField);
      }
      if HasMedicineId(f.medicineId) {
        return Failure(DuplicateMedicineId);
      }
      if purchase < 0 || selling < 0 {
        return Failure(NegativePrice);
      }
      var warning := selling < purchase;
      var m := Medicine(f.medicineId, f.name, f.category, f.manufacturer, f.description,
        stock, f.unit, f.expiryDate, purchase, selling, reorder);
      medicines := medicines[nextId := m];
      r := Success((nextId, warning));
      nextId := nextId + 1;
    }

    /**
      `update_stock` on a POST: the stock of an existing medicine changes as
      `StockChange` says, or stays as it was when the change is refused.
    */
    method UpdateStock(pk: nat, action: StockAction, quantity: int, isPost: bool) returns (r: Outcome<CatalogueError>)
      requires Valid()
      modifies this
      ensures Valid() && nextId == old(nextId)
      ensures r == Fail(NotFound) <==> pk !in old(medicines)
      ensures pk in old(medicines) && isPost ==>
        match StockChange(old(medicines)[pk].stockQuantity, action, quantity)
        case Failure(e) => r == Fail(e) && medicines == old(medicines)
        case Success(s) => r == Pass && medicines == old(medicines)[pk := old(medicines)[pk].(stockQuantity := s)]
      ensures r == Fail(NotFound) || !isPost ==> medicines == old(medicines)
      ensures pk in old(medicines) && !isPost ==> r == Pass
    {
      if pk !in medicines {
        return Fail(NotFound);
      }
      if !isPost {
        return Pass;
      }
      if quantity <= 0 {
        return Fail(NonPositiveQuantity);
      }
      var m := medicines[pk];
      if action == Add {
        m := m.(stockQuantity := m.stockQuantity + quantity);
      } else if action == Remove {
        if m.stockQuantity < quantity {
          return Fail(InsufficientStock);
        }
        m := m.(stockQuantity := m.stockQuantity - quantity);
      }
      medicines := medicines[pk := m];
      r := Pass;
    }
  }
}

=== FILE: stock_report.dfy ===
/**
  The medicine stock report (`medicine_stock_report`): the stock counts,
  the three-way stock distribution, the critical list, and the purchase
  and selling value of the stock on hand with the expected profit.
*/
module StockReport {
  import opened Pharmacy

  /** `stock_quantity__gt=0` */
  predicate InStock(s: int) { s > 0 }
  /** `stock_quantity__gt=0, stock_quantity__lte=10` */
  predicate LowStock(s: int) { 0 < s <= 10 }
  /** `stock_quantity=0` */
  predicate OutOfStock(s: int) { s == 0 }
  /** `stock_quantity__gt=50` */
  predicate Adequate(s: int) { s > 50 }
  /** `stock_quantity__gte=11, stock_quantity__lte=50` */
  predicate Moderate(s: int) { 11 <= s <= 50 }
  /** `stock_quantity__lte=10` */
  predicate Critical(s: int) { s <= 10 }
  /** `Q(stock_quantity=0) | Q(stock_quantity__lte=10)`, the critical-alert filter */
  predicate CriticalAlert(s: int) { s == 0 || s <= 10 }

  /** The number of medicines whose stock satisfies `p`. */
  function CountWhere(ms: seq<Medicine>, p: int -> bool): (n: nat)
    ensures n <= |ms|
  {
    if ms == [] then 0
    else CountWhere(ms[..|ms| - 1], p) + (if p(ms[|ms| - 1].stockQuantity) then 1 else 0)
  }

  /** The medicines whose stock satisfies `p`, in their original order. */
  function FilterWhere(ms: seq<Medicine>, p: int -> bool): (r: seq<Medicine>)
    ensures |r| == CountWhere(ms, p)
    ensures forall m :: m in r ==> m in ms && p(m.stockQuantity)
    ensures forall m :: m in ms && p(m.stockQuantity) ==> m in r
  {
    if ms == [] then []
    else
      var init := FilterWhere(ms[..|ms| - 1], p);
      assert forall m :: m in ms ==> m in ms[..|ms| - 1] || m == ms[|ms| - 1];
      if p(ms[|ms| - 1].stockQuantity) then init + [ms[|ms| - 1]] else init
  }

  /** Counts of two filters that never hold together add up to the count of either holding. */
  lemma {:induction false} CountDisjoint(ms: seq<Medicine>, p: int -> bool, q: int -> bool, either: int -> bool)
    requires forall s :: !(p(s) && q(s))
    requires forall s :: either(s) <==> p(s) || q(s)
    ensures CountWhere(ms, either) == CountWhere(ms, p) + CountWhere(ms, q)
  {
    if ms != [] {
      CountDisjoint(ms[..|ms| - 1], p, q, either);
    }
  }

  /** A filter that implies another never counts more. */
  lemma {:induction false} CountMonotone(ms: seq<Medicine>, p: int -> bool, q: int -> bool)
    requires forall s :: p(s) ==> q(s)
    ensures CountWhere(ms, p) <= CountWhere(ms, q)
  {
    if ms != [] {
      CountMonotone(ms[..|ms| - 1], p, q);
    }
  }

  /** Filters that agree on every stock level count the same. */
  lemma {:induction false} CountSame(ms: seq<Medicine>, p: int -> bool, q: int -> bool)
    requires forall s :: p(s) <==> q(s)
    ensures CountWhere(ms, p) == CountWhere(ms, q)
    ensures FilterWhere(ms, p) == FilterWhere(ms, q)
  {
    if ms != [] {
      CountSame(ms[..|ms| - 1], p, q);
    }
  }

  /** A filter counts every medicine exactly when every stock satisfies it. */
  lemma {:induction false} CountAll(ms: seq<Medicine>, p: int -> bool)
    ensures CountWhere(ms, p) == |ms| <==> forall k :: 0 <= k < |ms| ==> p(ms[k].stockQuantity)
  {
    if ms != [] {
      CountAll(ms[..|ms| - 1], p);
      assert forall k :: 0 <= k < |ms| - 1 ==> ms[..|ms| - 1][k] == ms[k];
    }
  }

  /** The adequate, moderate and critical counts add up to the number of medicines. */
  lemma DistributionPartitions(ms: seq<Medicine>)
    ensures CountWhere(ms, Adequate) + CountWhere(ms, Moderate) + CountWhere(ms, Critical) == |ms|
  {
    var upper := (s: int) => Adequate(s) || Moderate(s);
    CountDisjoint(ms, Adequate, Moderate, upper);
    CountDisjoint(ms, upper, Critical, (s: int) => true);
    CountAll(ms, (s: int) => true);
  }

  /**
    Low-stock and out-of-stock medicines are both critical and never the
    same medicine; they make up every critical medicine when no stock is
    negative.
  */
  lemma CriticalSubsets(ms: seq<Medicine>)
    ensures CountWhere(ms, LowStock) <= CountWhere(ms, Critical)
    ensures CountWhere(ms, OutOfStock) <= CountWhere(ms, Critical)
    ensures CountWhere(ms, LowStock) + CountWhere(ms, OutOfStock) <= CountWhere(ms, Critical)
    ensures (forall k :: 0 <= k < |ms| ==> ms[k].stockQuantity >= 0) ==>
              CountWhere(ms, LowStock) + CountWhere(ms, OutOfStock) == CountWhere(ms, Critical)
  {
    CountMonotone(ms, LowStock, Critical);
    CountMonotone(ms, OutOfStock, Critical);
    var lowOrOut := (s: int) => LowStock(s) || OutOfStock(s);
    CountDisjoint(ms, LowStock, OutOfStock, lowOrOut);
    CountMonotone(ms, lowOrOut, Critical);
    var negative := (s: int) => s < 0;
    CountDisjoint(ms, lowOrOut, negative, Critical);
    CountAll(ms, (s: int) => s >= 0);
    CountDisjoint(ms, (s: int) => s >= 0, negative, (s: int) => true);
    CountAll(ms, (s: int) => true);
  }

  /** In-stock and out-of-stock medicines never outnumber all of them, and account for all of them exactly when no stock is negative. */
  lemma StockedOrEmpty(ms: seq<Medicine>)
    ensures CountWhere(ms, InStock) + CountWhere(ms, OutOfStock) <= |ms|
    ensures CountWhere(ms, InStock) + CountWhere(ms, OutOfStock) == |ms| <==>
              forall k :: 0 <= k < |ms| ==> ms[k].stockQuantity >= 0
  {
    var nonNegative := (s: int) => s >= 0;
    CountDisjoint(ms, InStock, OutOfStock, nonNegative);
    CountAll(ms, nonNegative);
  }

  /** The critical-alert list holds exactly the critical medicines: its "= 0" alternative adds nothing. */
  lemma CriticalAlertIsCritical(ms: seq<Medicine>)
    ensures FilterWhere(ms, CriticalAlert) == FilterWhere(ms, Critical)
    ensures CountWhere(ms, CriticalAlert) == CountWhere(ms, Critical)
  {
    CountSame(ms, CriticalAlert, Critical);
  }

  /** `part / whole * 100`, or 0 when there are no medicines. */
  function Percent(part: nat, whole: nat): real {
    if whole > 0 then part as real / whole as real * 100.0 else 0.0
  }

  /**
    The adequate, moderate and critical percentages are each between 0 and
    100 and, for a non-empty stock, add up to 100; with no medicines all
    three are 0.
  */
  lemma DistributionPercents(ms: seq<Medicine>)
    ensures var n := |ms|;
            0.0 <= Percent(CountWhere(ms, Adequate), n) <= 100.0 &&
            0.0 <= Percent(CountWhere(ms, Moderate), n) <= 100.0 &&
            0.0 <= Percent(CountWhere(ms, Critical), n) <= 100.0
    ensures |ms| > 0 ==>
              Percent(CountWhere(ms, Adequate), |ms|) + Percent(CountWhere(ms, Moderate), |ms|) +
              Percent(CountWhere(ms, Critical), |ms|) == 100.0
    ensures |ms| == 0 ==>
              Percent(CountWhere(ms, Adequate), 0) == Percent(CountWhere(ms, Moderate), 0) ==
              Percent(CountWhere(ms, Critical), 0) == 0.0
  {
    DistributionPartitions(ms);
    var n := |ms|;
    if n > 0 {
      var a, m, c := CountWhere(ms, Adequate), CountWhere(ms, Moderate), CountWhere(ms, Critical);
      PercentBounds(a, n);
      PercentBounds(m, n);
      PercentBounds(c, n);
      PercentsAdd(a, m, c, n);
    }
  }

  lemma PercentBounds(part: nat, whole: nat)
    requires 0 < whole && part <= whole
    ensures 0.0 <= Percent(part, whole) <= 100.0
  {
    var q := part as real / whole as real;
    assert q * whole as real == part as real;
  }

  lemma PercentsAdd(a: nat, b: nat, c: nat, whole: nat)
    requires 0 < whole && a + b + c == whole
    ensures Percent(a, whole) + Percent(b, whole) + Percent(c, whole) == 100.0
  {
    var w := whole as real;
    assert a as real / w + b as real / w + c as real / w == (a + b + c) as real / w;
  }

  // ---------------------------------------------------------------------------
  // The critical list: lowest stock first, at most ten

  predicate AscendingStock(s: seq<Medicine>) {
    forall i, j :: 0 <= i < j < |s| ==> s[i].stockQuantity <= s[j].stockQuantity
  }

  /** Places `x` in front of the first medicine whose stock is not lower, so it keeps its place among equals. */
  function InsertByStock(x: Medicine, t: seq<Medicine>): (r: seq<Medicine>)
    requires AscendingStock(t)
    ensures AscendingStock(r)
    ensures multiset(r) == multiset(t) + multiset{x}
    ensures r[0] == x || (t != [] && r[0] == t[0])
  {
    if t == [] || x.stockQuantity <= t[0].stockQuantity then
      AscendingCons(x, t);
      [x] + t
    else
      var rest := InsertByStock(x, t[1..]);
      assert t == [t[0]] + t[1..];
      assert ([t[0]] + rest)[1..] == rest;
      AscendingCons(t[0], rest);
      [t[0]] + rest
  }

  lemma AscendingCons(y: Medicine, s: seq<Medicine>)
    requires AscendingStock(s)
    requires s != [] ==> y.stockQuantity <= s[0].stockQuantity
    ensures AscendingStock([y] + s)
  {
    var r := [y] + s;
    forall i, j | 0 <= i < j < |r|
      ensures r[i].stockQuantity <= r[j].stockQuantity
    {
      if i == 0 {
        assert r[j] == s[j - 1];
        assert s[0].stockQuantity <= s[j - 1].stockQuantity;
      } else {
        assert r[i] == s[i - 1] && r[j] == s[j - 1];
      }
    }
  }

  /** `order_by('stock_quantity')`. */
  function SortByStock(s: seq<Medicine>): (r: seq<Medicine>)
    ensures AscendingStock(r)
    ensures multiset(r) == multiset(s)
  {
    if s == [] then []
    else
      assert s == [s[0]] + s[1..];
      InsertByStock(s[0], SortByStock(s[1..]))
  }

  /** The size of the critical list: ten, or fewer when fewer medicines are critical. */
  function CriticalShown(ms: seq<Medicine>): nat {
    var n := CountWhere(ms, CriticalAlert);
    if n <= 10 then n else 10
  }

  /** `critical_medicines[:10]`: the critical medicines, lowest stock first, at most ten. */
  function CriticalList(ms: seq<Medicine>): (r: seq<Medicine>)
    ensures |r| == CriticalShown(ms)
    ensures AscendingStock(r)
    ensures forall m :: m in r ==> m in ms && Critical(m.stockQuantity)
  {
    var f := FilterWhere(ms, CriticalAlert);
    var s := SortByStock(f);
    assert |s| == |f| by { assert |multiset(s)| == |multiset(f)|; }
    var r := s[..CriticalShown(ms)];
    forall m | m in r
      ensures m in f
    {
      assert m in multiset(s);
    }
    forall i, j | 0 <= i < j < |r|
      ensures r[i].stockQuantity <= r[j].stockQuantity
    {
      assert r[i] == s[i] && r[j] == s[j];
    }
    r
  }

  /**
    No critical medicine left off the list has less stock than one on it,
    and when at most ten medicines are critical every one of them is listed.
  */
  lemma CriticalListIsLowest(ms: seq<Medicine>, x: Medicine, y: Medicine)
    requires x in ms && Critical(x.stockQuantity)
    ensures CountWhere(ms, CriticalAlert) <= 10 ==> x in CriticalList(ms)
    ensures y in CriticalList(ms) && x !in CriticalList(ms) ==> y.stockQuantity <= x.stockQuantity
  {
    var f := FilterWhere(ms, CriticalAlert);
    var s := SortByStock(f);
    assert x in f;
    assert x in s by { assert x in multiset(f); }
    assert |s| == |f| by { assert |multiset(s)| == |multiset(f)|; }
    var n := CriticalShown(ms);
    assert CriticalList(ms) == s[..n];
    if n == |s| {
      assert s[..n] == s;
    }
    if y in s[..n] && x !in s[..n] {
      LowestOfSorted(s, n, x, y);
    }
  }

  lemma LowestOfSorted(s: seq<Medicine>, n: nat, x: Medicine, y: Medicine)
    requires AscendingStock(s) && n <= |s|
    requires x in s && x !in s[..n] && y in s[..n]
    ensures y.stockQuantity <= x.stockQuantity
  {
    assert s == s[..n] + s[n..];
    assert x in s[n..];
    var j :| 0 <= j < |s| - n && s[n..][j] == x;
    var i :| 0 <= i < n && s[..n][i] == y;
    assert s[i].stockQuantity <= s[n + j].stockQuantity;
  }

  // ---------------------------------------------------------------------------
  // Stock value

  /** The purchase value of the stock on hand: stock times purchase price, summed. */
  function PurchaseValue(ms: seq<Medicine>): int {
    if ms == [] then 0
    else PurchaseValue(ms[..|ms| - 1]) + ms[|ms| - 1].stockQuantity * ms[|ms| - 1].purchasePrice
  }

  /** The selling value of the stock on hand: stock times selling price, summed. */
  function SellingValue(ms: seq<Medicine>): int {
    if ms == [] then 0
    else SellingValue(ms[..|ms| - 1]) + ms[|ms| - 1].stockQuantity * ms[|ms| - 1].sellingPrice
  }

  /**
    The report's accumulator loop: a medicine adds to a value only when its
    stock and the price are both non-zero, which leaves out only zero terms,
    so the totals are the plain sums.
  */
  method StockValues(ms: seq<Medicine>) returns (purchase: int, selling: int)
    ensures purchase == PurchaseValue(ms)
    ensures selling == SellingValue(ms)
  {
    purchase := 0;
    selling := 0;
    var i := 0;
    while i < |ms|
      invariant 0 <= i <= |ms|
      invariant purchase == PurchaseValue(ms[..i])
      invariant selling == SellingValue(ms[..i])
    {
      var m := ms[i];
      assert ms[..i + 1][..i] == ms[..i];
      if m.stockQuantity != 0 && m.purchasePrice != 0 {
        purchase := purchase + m.stockQuantity * m.purchasePrice;
      }
      if m.stockQuantity != 0 && m.sellingPrice != 0 {
        selling := selling + m.stockQuantity * m.sellingPrice;
      }
      i := i + 1;
    }
    assert ms[..|ms|] == ms;
  }

  /** The expected profit: selling value less purchase value. */
  function ExpectedProfit(ms: seq<Medicine>): int {
    SellingValue(ms) - PurchaseValue(ms)
  }

  /** The stock profit margin in percent; 0 when the purchase value is not positive. */
  function StockProfitMargin(ms: seq<Medicine>): real {
    if PurchaseValue(ms) > 0 then ExpectedProfit(ms) as real / PurchaseValue(ms) as real * 100.0 else 0.0
  }

  /** The expected profit is the sum of each medicine's stock times its unit markup. */
  lemma {:induction false} ProfitIsSumOfMarkups(ms: seq<Medicine>)
    ensures ExpectedProfit(ms) == MarkupValue(ms)
  {
    if ms != [] {
      ProfitIsSumOfMarkups(ms[..|ms| - 1]);
      var m := ms[|ms| - 1];
      assert m.stockQuantity * m.sellingPrice - m.stockQuantity * m.purchasePrice
          == m.stockQuantity * (m.sellingPrice - m.purchasePrice);
    }
  }

  function MarkupValue(ms: seq<Medicine>): int {
    if ms == [] then 0
    else MarkupValue(ms[..|ms| - 1]) + ms[|ms| - 1].stockQuantity * (ms[|ms| - 1].sellingPrice - ms[|ms| - 1].purchasePrice)
  }

  /** With no negative stock and nothing sold below cost, the expected profit is not negative. */
  lemma {:induction false} ProfitNonNegative(ms: seq<Medicine>)
    requires forall k :: 0 <= k < |ms| ==> ms[k].stockQuantity >= 0 && ms[k].sellingPrice >= ms[k].purchasePrice
    ensures ExpectedProfit(ms) >= 0
  {
    ProfitIsSumOfMarkups(ms);
    MarkupNonNegative(ms);
  }

  lemma {:induction false} MarkupNonNegative(ms: seq<Medicine>)
    requires forall k :: 0 <= k < |ms| ==> ms[k].stockQuantity >= 0 && ms[k].sellingPrice >= ms[k].purchasePrice
    ensures MarkupValue(ms) >= 0
  {
    if ms != [] {
      assert forall k :: 0 <= k < |ms| - 1 ==> ms[..|ms| - 1][k] == ms[k];
      MarkupNonNegative(ms[..|ms| - 1]);
      var m := ms[|ms| - 1];
      assert m.stockQuantity * (m.sellingPrice - m.purchasePrice) >= 0;
    }
  }

  /** For a positive purchase value the margin has the sign of the expected profit; otherwise it is 0. */
  lemma MarginSign(ms: seq<Medicine>)
    ensures PurchaseValue(ms) > 0 ==> (StockProfitMargin(ms) > 0.0 <==> ExpectedProfit(ms) > 0)
    ensures PurchaseValue(ms) > 0 ==> (StockProfitMargin(ms) < 0.0 <==> ExpectedProfit(ms) < 0)
    ensures PurchaseValue(ms) <= 0 ==> StockProfitMargin(ms) == 0.0
  {
  }
}

=== FILE: suppliers.dfy ===
/**
  Suppliers and purchase orders: the defaults a new supplier and a new
  order start with, and the line total `PurchaseOrderItem.save` derives.
  Amounts are integers in minor currency units; a supplier rating is held
  in hundredths.
*/
module Suppliers {

  datatype SupplierStatus = Active | Inactive | Blacklisted

  datatype Supplier = Supplier(supplierId: string, companyName: string, status: SupplierStatus, ratingHundredths: int)

  datatype OrderStatus = Pending | Approved | Delivered | Cancelled

  /** A purchase order; `supplier` is the primary key of the supplier. */
  datatype PurchaseOrder = PurchaseOrder(orderNumber: string, supplier: nat, totalAmount: int, status: OrderStatus)

  /** A line of a purchase order; `order` is the primary key of its order. */
  datatype OrderItem = OrderItem(order: nat, itemName: string, quantity: int, unitPrice: int, totalPrice: int)

  /** The rating's declared validator: not negative. */
  predicate RatingValid(s: Supplier) {
    s.ratingHundredths >= 0
  }

  /** A supplier as the table defaults create it: active, rated 0, which its validator accepts. */
  function NewSupplier(id: string, name: string): (s: Supplier)
    ensures s.status == Active && s.ratingHundredths == 0
    ensures RatingValid(s)
    ensures s.supplierId == id && s.companyName == name
  {
    Supplier(id, name, Active, 0)
  }

  /** A purchase order as the table defaults create it: pending, with a total of 0 that no code updates from its lines. */
  function NewPurchaseOrder(number: string, supplier: nat): (o: PurchaseOrder)
    ensures o.status == Pending && o.totalAmount == 0
    ensures o.orderNumber == number && o.supplier == supplier
  {
    PurchaseOrder(number, supplier, 0, Pending)
  }

  /** The line quantity's declared validator: at least 1. It is not run by `save`. */
  predicate QuantityValid(i: OrderItem) {
    i.quantity >= 1
  }

  /**
    `PurchaseOrderItem.save` on a line about to be written: the total price
    is recomputed as quantity times unit price, overwriting whatever the
    caller put there; nothing else changes, so a second save changes nothing.
    The quantity validator is not run: a line it would refuse is saved too,
    and with a non-negative price its total is then not positive.
  */
  method SaveItem(i: OrderItem) returns (t: OrderItem)
    ensures t.totalPrice == i.quantity * i.unitPrice
    ensures !QuantityValid(i) && i.unitPrice >= 0 ==> t.totalPrice <= 0
    ensures t == i.(totalPrice := t.totalPrice)
    ensures i.totalPrice == i.quantity * i.unitPrice ==> t == i
  {
    t := i.(totalPrice := i.quantity * i.unitPrice);
  }
}

=== FILE: wrappers.dfy ===
// Result and outcome types shared by the request handlers.
module Wrappers {

  datatype Option<+T> = None | Some(value: T) {
    function GetOr(default: T): T {
      match this
      case Some(v) => v
      case None => default
    }
  }

  /** The outcome of a request handler: a value, or the error message the handler would show. */
  datatype Result<+R, +E> = Success(value: R) | Failure(error: E)

  /** The outcome of a request handler that returns no value. */
  datatype Outcome<+E> = Pass | Fail(error: E)
}
